=== FILE: README.md ===
# Cambio game engine in Dafny

A model of the game engine inside the `CambioGame` component of a browser card game. The component
keeps one shared room record per match in a realtime store. Every button runs a handler that reads
the room record the client last received and writes an updated record back. With the store calls
and the screen state taken out, each handler is a pure step from a `Room` to a new `Room`. A
refused action leaves the record unchanged and reports a `Reason`.

The model covers:

- **Cards** (`cards.dfy`): the 54-card deck. It holds twelve ranks A–Q in four suits, four Kings
  and two Jokers. The module also holds the textual card form the record stores, the point table
  keyed by that text, and the colour rule for Kings.
- **Scoring** (`scoring.dfy`): the score of a hand, summed left to right.
- **Ranking** (`ranking.dfy`): the final ranking. It is a stable ascending sort of the score
  entries, and its head is the earliest entry with the lowest score.
- **Rooms** (`rooms.dfy`): the room record, whose turn test follows `isMyTurn`. It also defines
  where the cards are and the invariant `Valid` of every reachable record.
- **Actions** (`actions.dfy`): the handlers for create, join, start (dealing), initial view, draw,
  swap, discard, passing the turn, calling Cambio and ending the game. `Apply` puts all of them
  behind one entry point.
- **Invariants** (`invariants.dfy`): a created room is `Valid`, and a fresh player joining and
  every in-room action a screen offers keep it so. In particular the 54 cards stay spread over the
  deck, the hands, the discard pile and the drawn card, and the match only moves forward.
- **Final round** (`final_round.dfy`): after a Cambio call every other player gets exactly one
  more turn, in join order. The caller gets none, and then the game ends.
- **Findings** (`findings.dfy`): three faults of the handlers as written, each shown next to the
  corrected handler that the rest of the model uses. The look's write after the reveal window is
  refused by the store, and behind it the look's check reads a stale record. The swap on the last
  turn ends the game from the record before the swap. The swap and the discard fail to spread the
  empty discard pile, which the store drops.

Some guards live only in the screen that offers an action, not in its handler. These are the
`requires` clauses of the handlers, and `Offered` collects them:

- only the host sees Start;
- a hand slot is clickable only for its owner, on their turn, with a card drawn;
- Draw and Cambio are shown only in phase `playing`;
- Cambio is hidden during the final round.

The source keeps the final round and the end of the game as the booleans `finalRound` and
`gameOver`. Its `phase` field only takes the values lobby, initial view and playing, so the model
has the same three phases plus the two flags.

The deck is shuffled with random numbers. The model takes the shuffled deck as a parameter: any
ordering of the 54 cards (`IsShuffle`). The session id and the room code are parameters too.

After each look the component means to run `checkAllViewed` (src/App.js:315-327), whose only
write sets the phase to playing once every listed player has looked. That is the rule
`Actions.ViewInitialCards` states. As written, the write just before the call throws, so the check
never runs (`Findings.ViewInitialCardsAsWritten`); and were that write corrected, the check would
read a stale record and still never fire (`Findings.ViewInitialCardsStaleGate`). Findings explains
both. A Cambio call announces "Everyone gets one more turn"
(src/App.js:425) and never ends the game at once. It passes the turn on the record read before the
call, in which the final round has not begun, and with two or more players the next seat is never
the caller's (`FinalRound.CallCambioPassesTurn`).

## Model

| member | source | states |
|---|---|---|
| Cards.Value | src/App.js:457-465 | A card is worth between -1 and 10 points. It is negative exactly for the red Kings and zero exactly for the Joker. |
| Cards.RankLookup | src/App.js:36-39 | The table entry for each rank text A–Q is that rank's value, and no rank text is "K". |
| Cards.KingTableValue | src/App.js:459-462 | Read from its text, a King with a heart or diamond is worth -1 and a spade or club King is worth 10. |
| Cards.TableAgreesWithValue | src/App.js:457-465 | For every card, stripping the suit from its text and looking it up (or applying the red-King rule) gives the card's value. |
| Cards.FreshDeckComposition | src/App.js:108-118 | The unshuffled deck has 54 cards: every ranked card and every King once, the Joker twice. |
| Cards.ShuffleComposition | src/App.js:119 | A shuffled deck has 54 cards, each card as often as in the unshuffled deck. |
| Scoring.Score | src/App.js:457-465 | A hand of n cards scores between -n and 10n. |
| Scoring.ScoreAppend | src/App.js:457-465 | Scoring two hands joined gives the sum of their scores. |
| Scoring.ScoreIgnoresVisibility | src/App.js:457-465 | A score depends only on the cards in the slots, not on which are face up. |
| Scoring.ScoreAfterReplace | src/App.js:360-361 | Replacing the card in one slot changes the score by the new card's value minus the old card's. |
| Scoring.ScoreExamples | src/App.js:36-39 | A♠ scores 1, K♥ -1, K♠ 10 and a Joker 0; the hand [10♣, Q♦] scores 20. |
| Ranking.SortByScore | src/App.js:447 | The ranking is a permutation of the entries, sorted by ascending score. |
| Ranking.SortKeepsTies | src/App.js:447 | Stability: for every score, the entries with that score appear in the ranking in their original order. |
| Ranking.FirstLowest | src/App.js:452 | The returned position holds the lowest score, and every earlier position holds a strictly higher one. |
| Ranking.SortHeadIsFirstLowest | src/App.js:447-452 | The first entry of the ranking is the earliest entry with the lowest score. |
| Rooms.IndexOf | src/App.js:417 | The result is -1 exactly when the id is absent; otherwise it is the position of the id's first occurrence. |
| Rooms.IsMyTurn | src/App.js:467-470 | It is only ever a seated player's turn. With distinct ids, it is `me`'s turn exactly when `me`'s position is the turn index. |
| Rooms.HeldCard | src/App.js:246-250 | A client holds the drawn card exactly when one is drawn and it was drawn by that client. |
| Rooms.ConservedIsFreshDeck | src/App.js:108-119 | A room holds each card as often as the game is played with it exactly when its cards form the unshuffled deck. |
| Rooms.ConservedCount | src/App.js:108-119 | In a conserved room the deck, the hand slots, the discard pile and the drawn card number 54. |
| Actions.CreateGame | src/App.js:122-156 | Creating is refused exactly when the name is blank. Otherwise the creator is host and sole player of a lobby with 54 cards and an empty pile. |
| Actions.JoinGame | src/App.js:170-207 | Joining succeeds exactly when name and code are not blank and the room exists and has not started. The newcomer is appended to the join order and added as a new player; every other player and every other field of the record are kept. |
| Actions.Deal | src/App.js:260-273 | The remaining deck is the original with four cards per player popped off its top, and every listed player has an entry. |
| Actions.DealtHand | src/App.js:263-272 | With distinct ids, the player at position j holds the four cards popped in turn j, top card first. |
| Actions.StartGame | src/App.js:254-286 | Start is refused exactly with fewer than two players or a deck too short to deal. Otherwise the deck shrinks by four per player, phase becomes initial view, the turn goes to position 0 and only the listed players remain. |
| Actions.StartDealsFourEach | src/App.js:263-273 | Each player of the join order gets four face-down cards popped in their turn, and the rest of their entry is kept. |
| Actions.HideFirstTwo | src/App.js:306-309 | The same cards: slots 0 and 1 are face down again and the other slots are unchanged. |
| Actions.ViewInitialCards | src/App.js:289-328 | A look is refused exactly when the player has already looked or has fewer than two cards. Otherwise the player is marked and slots 0 and 1 are hidden again. Only that player's entry and the phase change, and the phase becomes playing exactly when every listed player has looked. |
| Actions.DrawCard | src/App.js:330-351 | A draw is refused exactly when the caller already holds a card, it is not their turn, or the deck is empty. Otherwise the deck's top card becomes the caller's drawn card and nothing else changes. |
| Actions.PlaceDrawn | src/App.js:353-374 | The drawn card goes face down into slot k, the replaced card goes on top of the discard pile, and the drawn card is cleared. No other field of the record changes: every other player, the deck, the turn, the final-round fields and the outcome are kept. |
| Actions.SwapCard | src/App.js:353-376 | The corrected swap, which treats an empty pile as an empty list: it is refused exactly without a drawn card. Otherwise the hand holds the drawn card in slot k and the replaced card tops the pile. The deck is kept and the drawn card is cleared; if the game goes on, every other entry is unchanged. |
| Actions.DiscardDrawn | src/App.js:378-393 | The corrected discard, which treats an empty pile as an empty list: it is refused exactly without a drawn card. Otherwise the drawn card tops the pile and is cleared. Deck and hands keep their cards. |
| Actions.Successor | src/App.js:399 | The next position is inside the ring: one more, or 0 after the last. |
| Actions.NextTurn | src/App.js:395-409 | The turn index stays inside the join order and moves to the next position, wrapping to the first. The game ends exactly when the final round is on and that position is the caller's; deck, pile, drawn card, phase and final-round fields are kept. Otherwise only the turn index changes. |
| Actions.NextTurnEnding | src/App.js:399-402 | When passing the turn ends the game, the record written is exactly the end of the game computed from the record read: hands revealed, scores ranked, winner chosen. |
| Actions.CallCambio | src/App.js:411-427 | A call is refused exactly when it is not the caller's turn or they hold a drawn card. Otherwise the final round starts with the caller's id and position recorded, the turn passes on and the game is not over. |
| Actions.EndGame | src/App.js:429-455 | The written players are exactly the listed ones, each with its name and flags kept and its hand shown face up with the same cards. There is one score per listed player, ranked lowest first, the winner is the first of the ranking, and the game is over; no other field changes. |
| Actions.EndGameRanking | src/App.js:440-452 | The ranking holds exactly the score table's entries, players with equal scores stay in join order, and the winner is the earliest listed player with the lowest score. |
| Invariants.CreateGameValid | src/App.js:139-156 | A created room satisfies the invariant. |
| Invariants.JoinGameValid | src/App.js:190-201 | A fresh id joining a valid lobby leaves it valid. |
| Invariants.DealConserves | src/App.js:260-273 | Dealing moves cards from the deck to the hands without creating or losing any. |
| Invariants.StartValid | src/App.js:254-286 | Starting a valid lobby gives a valid room: four cards per hand, and the same 54 cards. |
| Invariants.ViewInitialValid | src/App.js:289-328 | A look keeps the room valid. |
| Invariants.HeldOnlyByCurrent | src/App.js:246-250 | In a valid room only the player whose turn it is can hold the drawn card. |
| Invariants.DrawValid | src/App.js:330-351 | A draw keeps the room valid and happens only when no card is drawn. |
| Invariants.NextTurnValid | src/App.js:395-409 | Passing the turn, or ending the game, keeps a valid room valid. |
| Invariants.PlaceDrawnKeepsCards | src/App.js:353-374 | The swap's writes keep every card: one card leaves the hand for the pile and the drawn card enters the hand. |
| Invariants.SwapValid | src/App.js:353-376 | A swap keeps the room valid. |
| Invariants.DiscardValid | src/App.js:378-393 | A discard keeps the room valid. |
| Invariants.CambioValid | src/App.js:411-427 | A Cambio call keeps the room valid. |
| Invariants.StepPreservesValid | src/App.js:254-455 | Every in-room action a screen offers (start, look, draw, swap, discard, Cambio) turns a valid room into a valid room, and the match never moves back a stage. Once the final round is on, no action changes the caller's recorded position. |
| Invariants.OnlyCurrentPlayerActs | src/App.js:330-427 | Drawing, discarding and calling Cambio are refused to everyone but the current player. |
| Invariants.NoSecondDraw | src/App.js:331 | While a card is drawn, every draw is refused. |
| Invariants.FinalScoresOfRevealedHands | src/App.js:429-455 | Every final score entry belongs to a listed player and is the score of that player's revealed hand. |
| FinalRound.TurnsLeft | src/App.js:399-401 | The number of positions forward from the current player to the caller; it is zero exactly at the caller. |
| FinalRound.NextTurnCountsDown | src/App.js:395-409 | In a running final round, passing the turn ends the game exactly when the caller is next; otherwise the caller comes one position closer. |
| FinalRound.DrawKeepsCountdown | src/App.js:330-351 | A draw in a running final round leaves the caller exactly as many positions away. |
| FinalRound.CompletedTurnCountsDown | src/App.js:353-409 | Completing a turn of a running final round by a swap or a discard ends the game exactly when the caller is next; otherwise the caller comes one position closer. |
| FinalRound.CambioStartsCountdown | src/App.js:411-427 | Right after a call, the final round is running with every other player still to play. |
| FinalRound.CallCambioPassesTurn | src/App.js:411-427 | Passing the turn on the record read before the call is the same as passing it on the updated record. |
| FinalRound.AdvanceCountsDown | src/App.js:395-409 | After k passes of a running final round the caller is k positions closer, and the pass that reaches the caller ends the game. |
| FinalRound.AdvanceEnds | src/App.js:395-409 | Passing the turn as many times as the caller is away ends the game. |
| FinalRound.FullFinalRound | src/App.js:395-409 | From the start of a final round among n players with the caller at position c, the next n-1 turns go in order to the positions after the caller, never to the caller, and then the game is over. |
| FinalRound.CambioGivesEveryoneElseOneTurn | src/App.js:395-427 | After a Cambio call, every other player gets one more turn in join order, the caller none, and the game ends after n-1 turns. |
| Findings.ViewInitialCardsAsWritten | src/App.js:289-312 | As written, a look marks the player and leaves slots 0 and 1 face up with the same cards; the phase stays initial view and nothing else in the record changes. |
| Findings.ViewInitialCardsStaleGate | src/App.js:306-328 | With the write after the window corrected, a look marks the player and hides slots 0 and 1, but the phase becomes playing only if everyone had looked in the record read before the look. |
| Findings.StaleGateNeverOpens | src/App.js:315-327 | With the write after the window corrected, no look ever starts play. |
| Findings.LastViewerLeavesGameStuck | src/App.js:289-328 | When the last player looks, the corrected handler starts play. As written, everyone has looked, the looker's first two cards stay face up, play has not started, and every further look is refused; correcting only the write after the window still leaves play unstarted. |
| Findings.SwapCardAsWritten | src/App.js:353-376 | As written, a swap is refused exactly without a drawn card or with an empty pile. Otherwise the replaced card tops the pile and the drawn card is cleared, and the game ends exactly when the turn would pass to the caller. |
| Findings.SwapAsWrittenAgreesOffLastTurn | src/App.js:395-409 | With a card on the pile and except on the turn that ends the game, the handler as written matches the corrected one. |
| Findings.FinalSwapCards | src/App.js:429-455 | As written, the last turn's swap leaves the replaced card in play twice and the drawn card not at all. |
| Findings.FinalSwapUndone | src/App.js:432-438 | As written, the player's hand after the last turn's swap has the cards it had before the swap. |
| Findings.FinalSwapCorrected | src/App.js:353-376 | The corrected last-turn swap ends the game with the drawn card in the hand. |
| Findings.FinalSwapBreaksConservation | src/App.js:429-455 | With a card on the pile, swapping a card into a slot that holds a different card on the last turn breaks conservation as written, and keeps it in the corrected handler. |
| Findings.DiscardDrawnAsWritten | src/App.js:378-393 | As written, a discard is refused exactly without a drawn card or with an empty pile; otherwise the drawn card tops the pile and is cleared. |
| Findings.PileStaysEmpty | src/App.js:353-393 | As written, no action puts the first card on the empty pile a room is created with. |
| Findings.DrawnCardStranded | src/App.js:353-393 | As written, once a card is drawn while the pile is empty, every action any screen offers is refused to every player. |
| Findings.FirstDrawStrandsCard | src/App.js:330-393 | As written, the first draw of a match leaves every offered action refused. The corrected discard puts the card on the pile and keeps the room valid. |

## Left out

- Store and bootstrap: loading the store's SDK, initialising it, and every read, write and subscription call are left out. The handlers are modelled as the record they write.
- Disconnect hooks and the `connected` flag: new players start connected, and nothing else reads or writes the flag.
- Randomness: the shuffle, the room code and the session id come from random numbers. They are parameters. The shuffle is any ordering of the 54 cards, and how uniform it is is not modelled.
- The reveal window: the look first writes slots 0 and 1 face up, then means to hide them again three seconds later. The corrected look models only the record after the window; the look as written models the record the failed hiding write leaves.
- Concurrency: two clients writing the same record at once, such as two simultaneous draws, is not a sequential property. The source has no transactions to model.
- Screens: rendering, messages, the card colour helper and the reset to the menu are left out.
- Empty arrays: the store drops an empty list, so an empty discard pile, deck or hand reads back as missing. The model keeps each as an empty sequence. For the pile this makes the swap and the discard throw, which Findings models. For the deck, the draw throws where it would report an empty deck; either way nothing is written, and the model reports `DeckEmpty`.
- Actions.IsBlank: treats only space, tab, newline and carriage return as blank, while trimming also removes other Unicode white space.
- Actions.StartGame: with more than thirteen players the deal runs past the deck, and the store refuses the resulting undefined cards. The model reports `DeckTooShort` and changes nothing.
- Invariants.JoinGameValid: assumes the joining id is not already seated. A client that joins twice under the same id appends a second copy of the id to the join order, which the invariant does not cover.
- Actions.StartDealsFourEach: assumes distinct ids in the join order. A repeated id is dealt twice, and its later hand overwrites the earlier one.
- Findings.ViewInitialCardsStaleGate: the look with its write corrected has a second stale read. The hidden slots written after the window come from the client's copy of its own hand. That copy is the same as the record unless something else changed the hand during the three seconds, which no action can do in that phase.

## Findings

| source | as written | input that shows it | evidently intended | confidence | as-written member | corrected member |
|---|---|---|---|---|---|---|
| src/App.js:289-328 | After the reveal window the look writes the hand back with `update` given a list, which the store refuses because it wants an object of children. The callback stops there: slots 0 and 1 stay face up and `checkAllViewed` never runs. Behind that throw, the check reads the room record captured when the look started, in which the looking player has not looked yet, so correcting the write alone does not start play either. | Two players in the initial view; A looks, then B looks. No check runs, and with the write corrected neither check sees both marks, so the phase stays initial view. Every further look is refused and no other action is offered (`Findings.LastViewerLeavesGameStuck`). | The phase becomes playing once the last player has looked; the corrected handler's contract states it. | high (the refused list rests on the store's argument check), not executed | Findings.ViewInitialCardsAsWritten | Actions.ViewInitialCards |
| src/App.js:353-376 | The swap writes the new hand, then passes the turn on the record read before the swap. On the last turn of the final round, ending the game overwrites every hand with its pre-swap cards. | Latent: it is reached only once the look fault of the first row is corrected, so that play begins, and the empty-pile fault of the next row is corrected, so that a card is on the pile. Two players, at least one card on the pile; A calls Cambio. B draws 5♣ and swaps it into a slot holding K♠. B's revealed hand still holds K♠, K♠ is also on the discard pile, and 5♣ is gone (`Findings.FinalSwapBreaksConservation`). | The swap lands in the hand before the hands are revealed and scored; `Invariants.SwapValid` proves the corrected swap keeps all 54 cards. | high, not executed | Findings.SwapCardAsWritten | Actions.SwapCard |
| src/App.js:353-393 | A room is created with an empty discard pile, which the store does not keep, so the pile reads back as missing. The swap and the discard spread it into the new pile, which throws before any write. | Latent behind the look fault of the first row: it is reached only once that is corrected, so that play begins. Two players in play with the pile empty; A draws. A's swap and discard both throw, A keeps the drawn card, and every other action is refused to both players, so the match cannot go on (`Findings.FirstDrawStrandsCard`). | A missing pile counts as empty and the first card goes on it; `Findings.FirstDrawStrandsCard` proves the corrected discard does this and keeps the room valid. | high, not executed | Findings.DiscardDrawnAsWritten | Actions.DiscardDrawn |

=== FILE: actions.dfy ===
/**
 * The action handlers of the game component, each a pure step from the room record a client read
 * to the record it writes back. A refused action leaves the record unchanged and reports why.
 *
 * Some guards live only in the screens that offer an action, not in its handler; those are the
 * `requires` clauses below, each marked with the screen condition it comes from.
 */
module Actions {
  import opened Wrappers
  import opened Cards
  import opened Scoring
  import opened Ranking
  import opened Rooms

  /** Why a handler leaves the room unchanged. */
  datatype Reason =
    | BlankName          // the player name or the room code is empty after trimming
    | RoomNotFound
    | AlreadyStarted
    | NotEnoughPlayers   // fewer than two players at start
    | DeckTooShort       // the deal would run past the deck and write undefined cards, which the store refuses
    | AlreadyViewed
    | NoInitialCards     // no slots 0 and 1 to reveal, so the handler fails before writing
    | CardAlreadyDrawn
    | NotYourTurn
    | DeckEmpty
    | NothingDrawn
    | NoDiscardPile      // the pile is empty, so the store holds no list for it and spreading it throws before any write

  /** Empty after trimming; only the ASCII blanks are treated as white space. */
  predicate IsBlank(s: string) {
    forall i :: 0 <= i < |s| ==> s[i] in " \t\n\r"
  }

  function NewPlayer(name: string): Player {
    Player(name, [], false, true)
  }

  /** The room a creator writes: they are host and sole player, the deck is freshly shuffled. */
  function CreateGame(me: PlayerId, name: string, deck: seq<Card>): (res: Result<Room, Reason>)
    requires IsShuffle(deck)   // the deck is the fixed 54 cards in an order chosen at random
    ensures res.Failure? <==> IsBlank(name)
    ensures res.Success? ==>
      && res.value.host == me && res.value.playerOrder == [me]
      && res.value.players == map[me := NewPlayer(name)]
      && |res.value.deck| == 54 && res.value.discardPile == []
      && res.value.phase == Lobby && !res.value.started && !res.value.gameOver
  {
    if IsBlank(name) then Failure(BlankName)
    else
      ShuffleComposition(deck, Joker);
      Success(Room(me, deck, [], 0, [me], map[me := NewPlayer(name)], false, Lobby, false,
                   None, None, false, None, None, None, None))
  }

  /** Joining appends the newcomer to the join order; `found` is what the store holds under the code. */
  function JoinGame(found: Option<Room>, me: PlayerId, name: string, code: string): (res: Result<Room, Reason>)
    ensures res.Success? <==> !IsBlank(name) && !IsBlank(code) && found.Some? && !found.value.started
    ensures res.Success? ==>
      && res.value.playerOrder == found.value.playerOrder + [me]
      && res.value.players.Keys == found.value.players.Keys + {me}
      && res.value.players[me] == NewPlayer(name)
      && (forall p :: p in found.value.players && p != me ==> res.value.players[p] == found.value.players[p])
      && res.value.deck == found.value.deck && res.value.phase == found.value.phase
    ensures res.Success? ==> res.value == found.value.(playerOrder := res.value.playerOrder, players := res.value.players)
  {
    if IsBlank(name) || IsBlank(code) then Failure(BlankName)
    else if found.None? then Failure(RoomNotFound)
    else if found.value.started then Failure(AlreadyStarted)
    else
      var r := found.value;
      Success(r.(playerOrder := r.playerOrder + [me], players := r.players[me := NewPlayer(name)]))
  }

  // ---------------------------------------------------------------------------
  // Start: four hidden cards each, popped from the top of the deck.
  // ---------------------------------------------------------------------------

  /** The hand the player at position `j` of the deal receives: four cards popped after 4*j others. */
  function TailHand(deck: seq<Card>, j: nat): seq<Slot>
    requires 4 * j + 4 <= |deck|
  {
    var n := |deck| - 4 * j;
    [Slot(deck[n - 1], false), Slot(deck[n - 2], false), Slot(deck[n - 3], false), Slot(deck[n - 4], false)]
  }

  /**
   * Deals to every id of `order` in turn, recording each dealt entry in `dealt` (a later entry for
   * the same id overwrites an earlier one); returns the remaining deck and the dealt entries.
   */
  function Deal(deck: seq<Card>, order: seq<PlayerId>, players: map<PlayerId, Player>, dealt: map<PlayerId, Player>)
    : (res: (seq<Card>, map<PlayerId, Player>))
    requires 4 * |order| <= |deck|
    requires forall p :: p in order ==> p in players
    ensures res.0 == deck[..|deck| - 4 * |order|]
    ensures res.1.Keys == dealt.Keys + set p | p in order
    ensures forall p :: p in dealt && p !in order ==> res.1[p] == dealt[p]
    decreases |order|
  {
    if |order| == 0 then (deck, dealt)
    else
      var rest := Deal(deck[..|deck| - 4], order[1..], players, dealt[order[0] := players[order[0]].(cards := TailHand(deck, 0))]);
      assert order == [order[0]] + order[1..];
      assert deck[..|deck| - 4][..|deck| - 4 - 4 * |order[1..]|] == deck[..|deck| - 4 * |order|];
      rest
  }

  lemma TailHandShift(deck: seq<Card>, j: nat)
    requires 1 <= j && 4 * j + 4 <= |deck|
    ensures TailHand(deck[..|deck| - 4], j - 1) == TailHand(deck, j)
  {
    var rest := deck[..|deck| - 4];
    var n := |deck| - 4 * j;
    assert |rest| - 4 * (j - 1) == n;
    assert rest[n - 1] == deck[n - 1] && rest[n - 2] == deck[n - 2];
    assert rest[n - 3] == deck[n - 3] && rest[n - 4] == deck[n - 4];
  }

  /** With distinct ids, the player at position `j` of the order holds the four cards popped in turn `j`. */
  lemma {:induction false} DealtHand(deck: seq<Card>, order: seq<PlayerId>, players: map<PlayerId, Player>,
                                    dealt: map<PlayerId, Player>, j: int)
    requires 4 * |order| <= |deck|
    requires forall p :: p in order ==> p in players
    requires Distinct(order) && 0 <= j < |order|
    ensures Deal(deck, order, players, dealt).1[order[j]] == players[order[j]].(cards := TailHand(deck, j))
    decreases |order|
  {
    DistinctTail(order);
    var dealt' := dealt[order[0] := players[order[0]].(cards := TailHand(deck, 0))];
    var rest := deck[..|deck| - 4];
    assert Deal(deck, order, players, dealt) == Deal(rest, order[1..], players, dealt');
    if j == 0 {
      assert order[0] in dealt' && order[0] !in order[1..];
    } else {
      assert order[j] == order[1..][j - 1];
      DealtHand(rest, order[1..], players, dealt', j - 1);
      TailHandShift(deck, j);
    }
  }

  /** The start: with two to thirteen players, each player of the join order gets four hidden cards. */
  function StartGame(r: Room, me: PlayerId): (res: Result<Room, Reason>)
    requires r.phase == Lobby && me == r.host   // the Start button is on the host's lobby screen only (App.js:575)
    requires Seated(r)
    ensures res.Failure? <==> |r.playerOrder| < 2 || |r.deck| < 4 * |r.playerOrder|
    ensures res.Success? ==>
      && res.value.phase == InitialView && res.value.started && res.value.currentPlayerIndex == 0
      && |res.value.deck| == |r.deck| - 4 * |r.playerOrder|
      && res.value.deck == r.deck[..|res.value.deck|]
      && res.value == r.(deck := res.value.deck, players := res.value.players,
                         started := true, phase := InitialView, currentPlayerIndex := 0)
      && res.value.players.Keys == set p | p in r.playerOrder
  {
    if |r.playerOrder| < 2 then Failure(NotEnoughPlayers)
    else if |r.deck| < 4 * |r.playerOrder| then Failure(DeckTooShort)
    else
      var (deck, dealt) := Deal(r.deck, r.playerOrder, r.players, map[]);
      Success(r.(deck := deck, players := dealt, started := true, phase := InitialView, currentPlayerIndex := 0))
  }

  /**
   * With distinct ids, the player at position `j` of the join order receives the four cards popped
   * in turn `j`, all face down, and keeps everything else of their entry.
   */
  lemma StartDealsFourEach(r: Room, me: PlayerId)
    requires r.phase == Lobby && me == r.host && Seated(r) && Distinct(r.playerOrder)
    ensures StartGame(r, me).Success? ==> forall j :: 0 <= j < |r.playerOrder| ==>
      && StartGame(r, me).value.players[r.playerOrder[j]] == r.players[r.playerOrder[j]].(cards := TailHand(r.deck, j))
      && |TailHand(r.deck, j)| == 4
      && (forall i :: 0 <= i < 4 ==> !TailHand(r.deck, j)[i].visible)
  {
    if StartGame(r, me).Success? {
      forall j | 0 <= j < |r.playerOrder|
        ensures StartGame(r, me).value.players[r.playerOrder[j]] == r.players[r.playerOrder[j]].(cards := TailHand(r.deck, j))
      {
        DealtHand(r.deck, r.playerOrder, r.players, map[], j);
      }
    }
  }

  // ---------------------------------------------------------------------------
  // Initial view.
  // ---------------------------------------------------------------------------

  predicate AllViewed(r: Room) {
    forall p :: p in r.playerOrder ==> p in r.players && r.players[p].hasViewedInitial
  }

  /** Slots 0 and 1 face down again, the rest as they were. */
  function HideFirstTwo(cards: seq<Slot>): (hidden: seq<Slot>)
    requires |cards| >= 2
    ensures |hidden| == |cards| && CardsOf(hidden) == CardsOf(cards)
    ensures !hidden[0].visible && !hidden[1].visible
    ensures forall i :: 2 <= i < |cards| ==> hidden[i] == cards[i]
  {
    cards[0 := cards[0].(visible := false)][1 := cards[1].(visible := false)]
  }

  /**
   * A player's one look at slots 0 and 1, taken after the reveal window has closed: the two slots are
   * hidden again, the player is marked as having looked, and once every player has looked the game
   * moves on to play. The gate reads the record after the player's own mark is written.
   */
  function ViewInitialCards(r: Room, me: PlayerId): (res: Result<Room, Reason>)
    requires r.phase == InitialView && me in r.players   // offered only during the initial view (App.js:688)
    ensures res.Failure? <==> r.players[me].hasViewedInitial || |r.players[me].cards| < 2
    ensures res.Success? ==> (res.value.phase == Playing <==> AllViewed(res.value))
    ensures res.Success? ==> res.value.phase == Playing || res.value.phase == InitialView
    ensures res.Success? ==>
      && res.value.players.Keys == r.players.Keys
      && res.value.players[me].hasViewedInitial
      && res.value.players[me].cards == HideFirstTwo(r.players[me].cards)
      && (forall p :: p in r.players && p != me ==> res.value.players[p] == r.players[p])
    ensures res.Success? ==> res.value.players[me] == r.players[me].(cards := HideFirstTwo(r.players[me].cards), hasViewedInitial := true)
    ensures res.Success? ==> res.value == r.(players := res.value.players, phase := res.value.phase)
  {
    var p := r.players[me];
    if p.hasViewedInitial then Failure(AlreadyViewed)
    else if |p.cards| < 2 then Failure(NoInitialCards)
    else
      var viewed := r.(players := r.players[me := p.(cards := HideFirstTwo(p.cards), hasViewedInitial := true)]);
      Success(if AllViewed(viewed) then viewed.(phase := Playing) else viewed)
  }

  // ---------------------------------------------------------------------------
  // A turn: draw, then swap the drawn card into the hand or discard it.
  // ---------------------------------------------------------------------------

  /** Drawing pops the top of the deck into the caller's hand-off slot. */
  function DrawCard(r: Room, me: PlayerId): (res: Result<Room, Reason>)
    requires r.phase == Playing && !r.gameOver   // the Draw button is offered only while playing (App.js:698)
    ensures res.Failure? <==> HeldCard(r, me).Some? || !IsMyTurn(r, me) || |r.deck| == 0
    ensures res.Success? ==>
      && res.value.drawnCard.Some?
      && res.value.deck + [res.value.drawnCard.value] == r.deck
      && res.value.drawnBy == Some(me)
      && res.value == r.(deck := res.value.deck, drawnCard := res.value.drawnCard, drawnBy := Some(me))
  {
    if HeldCard(r, me).Some? then Failure(CardAlreadyDrawn)
    else if !IsMyTurn(r, me) then Failure(NotYourTurn)
    else if |r.deck| == 0 then Failure(DeckEmpty)
    else
      var top := |r.deck| - 1;
      assert r.deck[..top] + [r.deck[top]] == r.deck;
      Success(r.(deck := r.deck[..top], drawnCard := Some(r.deck[top]), drawnBy := Some(me)))
  }

  /** The room writes of a swap: the drawn card goes face down into slot `k`, the old card on the pile. */
  function PlaceDrawn(r: Room, me: PlayerId, k: int, drawn: Card): (r': Room)
    requires me in r.players && 0 <= k < |r.players[me].cards|
    ensures r'.discardPile == r.discardPile + [r.players[me].cards[k].card]
    ensures r'.players.Keys == r.players.Keys
    ensures r'.players[me].cards == r.players[me].cards[k := Slot(drawn, false)]
    ensures forall p :: p in r.players && p != me ==> r'.players[p] == r.players[p]
    ensures r'.drawnCard.None? && r'.drawnBy.None?
    ensures r'.deck == r.deck && r'.playerOrder == r.playerOrder && r'.currentPlayerIndex == r.currentPlayerIndex
    ensures r' == r.(discardPile := r'.discardPile, drawnCard := None, drawnBy := None, players := r'.players)
  {
    var hand := r.players[me].cards;
    r.(discardPile := r.discardPile + [hand[k].card],
       drawnCard := None, drawnBy := None,
       players := r.players[me := r.players[me].(cards := hand[k := Slot(drawn, false)])])
  }

  /** Swapping the held card into slot `k`, then passing the turn on. */
  function SwapCard(r: Room, me: PlayerId, k: int): (res: Result<Room, Reason>)
    // a hand slot is clickable only for its owner, on their turn (App.js:650)
    requires r.phase == Playing && !r.gameOver && IsMyTurn(r, me)
    requires me in r.players && 0 <= k < |r.players[me].cards|
    requires Seated(r) && 0 <= r.currentPlayerIndex
    ensures res.Failure? <==> HeldCard(r, me).None?
    ensures res.Success? ==> res.value == NextTurn(PlaceDrawn(r, me, k, r.drawnCard.value))
    ensures res.Success? ==>
      var hand, placed := r.players[me].cards, r.players[me].cards[k := Slot(r.drawnCard.value, false)];
      && res.value.discardPile == r.discardPile + [hand[k].card]
      && res.value.drawnCard.None? && res.value.drawnBy.None? && res.value.deck == r.deck
      && me in res.value.players && CardsOf(res.value.players[me].cards) == CardsOf(placed)
      && (!res.value.gameOver ==> res.value.players == r.players[me := r.players[me].(cards := placed)])
  {
    match HeldCard(r, me)
    case None => Failure(NothingDrawn)
    case Some(c) => Success(NextTurn(PlaceDrawn(r, me, k, c)))
  }

  /** Discarding the held card face up, then passing the turn on. */
  function DiscardDrawn(r: Room, me: PlayerId): (res: Result<Room, Reason>)
    requires r.phase == Playing && !r.gameOver   // the Discard button is on the game screen (App.js:676)
    requires Seated(r) && 0 <= r.currentPlayerIndex
    ensures res.Failure? <==> HeldCard(r, me).None?
    ensures res.Success? ==>
      res.value == NextTurn(r.(discardPile := r.discardPile + [r.drawnCard.value], drawnCard := None, drawnBy := None))
    ensures res.Success? ==>
      && res.value.discardPile == r.discardPile + [r.drawnCard.value]
      && res.value.drawnCard.None? && res.value.drawnBy.None? && res.value.deck == r.deck
      && (forall p :: p in r.playerOrder ==> p in res.value.players && CardsOf(res.value.players[p].cards) == CardsOf(r.players[p].cards))
      && (!res.value.gameOver ==> res.value.players == r.players)
  {
    match HeldCard(r, me)
    case None => Failure(NothingDrawn)
    case Some(c) => Success(NextTurn(r.(discardPile := r.discardPile + [c], drawnCard := None, drawnBy := None)))
  }

  // ---------------------------------------------------------------------------
  // Passing the turn, calling Cambio, ending the game.
  // ---------------------------------------------------------------------------

  /** The position after `i` in a ring of `n`; JavaScript's `%` agrees with Dafny's on these operands. */
  function Successor(i: int, n: int): (j: int)
    requires 0 <= i && 0 < n
    ensures 0 <= j < n
    ensures i < n ==> j == if i + 1 == n then 0 else i + 1
  {
    if i + 1 == n then
      assert (i + 1) % n == 0;
      (i + 1) % n
    else (i + 1) % n
  }

  /**
   * The turn passes to the next position of the join order, wrapping to the first; in the final
   * round the game ends instead when that position is the Cambio caller's.
   */
  function NextTurn(r: Room): (r': Room)
    requires Seated(r) && 0 <= r.currentPlayerIndex
    ensures Seated(r') && 0 <= r'.currentPlayerIndex
    ensures !r'.gameOver ==> r'.currentPlayerIndex < |r.playerOrder|
    ensures r'.gameOver && !r.gameOver ==> r.finalRound && r'.currentPlayerIndex == r.currentPlayerIndex
    ensures r.currentPlayerIndex < |r.playerOrder| && !r'.gameOver ==>
      r'.currentPlayerIndex == if r.currentPlayerIndex + 1 == |r.playerOrder| then 0 else r.currentPlayerIndex + 1
    ensures r'.playerOrder == r.playerOrder && r'.deck == r.deck && r'.discardPile == r.discardPile
    ensures r'.finalRound == r.finalRound && r'.cambioCallerIndex == r.cambioCallerIndex
    ensures r'.drawnCard == r.drawnCard && r'.drawnBy == r.drawnBy && r'.phase == r.phase
    ensures r'.gameOver <==> r.gameOver || (r.finalRound && r.cambioCallerIndex == Some(Successor(r.currentPlayerIndex, |r.playerOrder|)))
    ensures !r'.gameOver ==> r' == r.(currentPlayerIndex := r'.currentPlayerIndex)
  {
    var next := Successor(r.currentPlayerIndex, |r.playerOrder|);
    if r.finalRound && r.cambioCallerIndex == Some(next) then EndGame(r)
    else r.(currentPlayerIndex := next)
  }

  /** The pass that ends the game writes exactly the end of the game computed from the record. */
  lemma NextTurnEnding(r: Room)
    requires Seated(r) && 0 <= r.currentPlayerIndex
    ensures NextTurn(r).gameOver && !r.gameOver ==> NextTurn(r) == EndGame(r)
  {
  }

  /**
   * Calling Cambio on one's own turn before drawing: the caller and their position are recorded, the
   * final round begins, and the turn passes on. The turn is passed using the record as read before
   * the call, in which the final round has not begun; with two or more players the result is the
   * same as passing it on the updated record (`CallCambioPassesTurn`).
   */
  function CallCambio(r: Room, me: PlayerId): (res: Result<Room, Reason>)
    // the Cambio button is offered only while playing and not in the final round (App.js:698, App.js:707)
    requires r.phase == Playing && !r.gameOver && !r.finalRound
    requires Seated(r) && 0 <= r.currentPlayerIndex
    ensures res.Failure? <==> !IsMyTurn(r, me) || HeldCard(r, me).Some?
    ensures res.Success? ==>
      && res.value.finalRound && res.value.cambioCaller == Some(me)
      && res.value.cambioCallerIndex == Some(IndexOf(r.playerOrder, me))
      && r.playerOrder[IndexOf(r.playerOrder, me)] == me
      && !res.value.gameOver
    ensures res.Success? && r.currentPlayerIndex < |r.playerOrder| ==>
      res.value == r.(finalRound := true, cambioCaller := Some(me), cambioCallerIndex := Some(IndexOf(r.playerOrder, me)),
                      currentPlayerIndex := if r.currentPlayerIndex + 1 == |r.playerOrder| then 0 else r.currentPlayerIndex + 1)
  {
    if !IsMyTurn(r, me) then Failure(NotYourTurn)
    else if HeldCard(r, me).Some? then Failure(CardAlreadyDrawn)
    else
      var called := r.(finalRound := true, cambioCaller := Some(me), cambioCallerIndex := Some(IndexOf(r.playerOrder, me)));
      Success(called.(currentPlayerIndex := Successor(r.currentPlayerIndex, |r.playerOrder|)))
  }

  /** One score entry per player of the join order, in join order, scored from their hand. */
  function ScoreTable(order: seq<PlayerId>, players: map<PlayerId, Player>): (table: seq<ScoreEntry>)
    requires forall p :: p in order ==> p in players
    ensures |table| == |order|
    ensures forall i :: 0 <= i < |order| ==>
      table[i] == ScoreEntry(order[i], players[order[i]].name, Score(players[order[i]].cards))
  {
    seq(|order|, i requires 0 <= i < |order| => ScoreEntry(order[i], players[order[i]].name, Score(players[order[i]].cards)))
  }

  /** Every listed player's hand turned face up; the written map holds the listed players only. */
  function RevealAll(order: seq<PlayerId>, players: map<PlayerId, Player>): (shown: map<PlayerId, Player>)
    requires forall p :: p in order ==> p in players
    ensures shown.Keys == set p | p in order
    ensures forall p :: p in order ==> shown[p] == players[p].(cards := Reveal(players[p].cards))
  {
    map p | p in order :: players[p].(cards := Reveal(players[p].cards))
  }

  /**
   * The end of the game: every hand is revealed, every player is scored, the scores are ranked
   * lowest first, and the first of the ranking is the winner. `EndGameRanking` states how the
   * ranking relates to the score table.
   */
  function EndGame(r: Room): (r': Room)
    requires Seated(r)
    ensures r'.gameOver
    ensures forall p :: p in r.playerOrder ==>
      p in r'.players && CardsOf(r'.players[p].cards) == CardsOf(r.players[p].cards)
      && (forall i :: 0 <= i < |r'.players[p].cards| ==> r'.players[p].cards[i].visible)
    ensures r'.finalScores.Some?
    ensures |r'.finalScores.value| == |r.playerOrder|
    ensures SortedByScore(r'.finalScores.value)
    ensures r'.winner == Some(r'.finalScores.value[0].playerId)
    ensures r' == r.(players := r'.players, gameOver := true, winner := r'.winner, finalScores := r'.finalScores)
    ensures r'.players == RevealAll(r.playerOrder, r.players)
  {
    var ranked := SortByScore(ScoreTable(r.playerOrder, r.players));
    r.(players := RevealAll(r.playerOrder, r.players), gameOver := true,
       winner := Some(ranked[0].playerId), finalScores := Some(ranked))
  }

  /**
   * The final ranking holds one entry per listed player, scored from their hand; players with equal
   * scores stay in join order; and the winner is the earliest player with the lowest score.
   */
  lemma EndGameRanking(r: Room)
    requires Seated(r)
    ensures multiset(EndGame(r).finalScores.value) == multiset(ScoreTable(r.playerOrder, r.players))
    ensures forall v :: WithScore(EndGame(r).finalScores.value, v) == WithScore(ScoreTable(r.playerOrder, r.players), v)
    ensures EndGame(r).winner == Some(r.playerOrder[FirstLowest(ScoreTable(r.playerOrder, r.players))])
  {
    var table := ScoreTable(r.playerOrder, r.players);
    var ranked := SortByScore(table);
    assert EndGame(r).finalScores.value == ranked;
    SortHeadIsFirstLowest(table, FirstLowest(table));
    forall v ensures WithScore(ranked, v) == WithScore(table, v) {
      SortKeepsTies(table, v);
    }
  }

  // ---------------------------------------------------------------------------
  // All actions of a client behind one entry point.
  // ---------------------------------------------------------------------------

  datatype Action = Start | ViewInitial | Draw | Swap(slot: int) | Discard | Cambio

  /** The screen state in which a client offers each action: the guards the handlers leave to the UI. */
  predicate Offered(r: Room, me: PlayerId, a: Action) {
    match a
    case Start => r.phase == Lobby && me == r.host
    case ViewInitial => r.phase == InitialView && !r.gameOver && me in r.players
    case Draw => r.phase == Playing && !r.gameOver
    case Swap(k) => r.phase == Playing && !r.gameOver && IsMyTurn(r, me) && me in r.players && 0 <= k < |r.players[me].cards|
    case Discard => r.phase == Playing && !r.gameOver
    case Cambio => r.phase == Playing && !r.gameOver && !r.finalRound
  }

  function Apply(r: Room, me: PlayerId, a: Action): (res: Result<Room, Reason>)
    requires Valid(r) && Offered(r, me, a)
    ensures res.Success? ==> res.value.playerOrder == r.playerOrder && res.value.host == r.host
  {
    match a
    case Start => StartGame(r, me)
    case ViewInitial => ViewInitialCards(r, me)
    case Draw => DrawCard(r, me)
    case Swap(k) => SwapCard(r, me, k)
    case Discard => DiscardDrawn(r, me)
    case Cambio => CallCambio(r, me)
  }
}

=== FILE: cards.dfy ===
/** Card identities, the point table and the fixed 54-card deck of a Cambio room. */
module Cards {

  datatype Suit = Spades | Hearts | Diamonds | Clubs

  /** The twelve ranks dealt in every suit; Kings are separate cards whose value depends on colour. */
  datatype Rank = Ace | Two | Three | Four | Five | Six | Seven | Eight | Nine | Ten | Jack | Queen

  datatype Card = Ranked(rank: Rank, suit: Suit) | King(suit: Suit) | Joker

  /** One position of a player's hand: the card and whether it is face up. */
  datatype Slot = Slot(card: Card, visible: bool)

  predicate IsRed(s: Suit) {
    s == Hearts || s == Diamonds
  }

  function RankValue(r: Rank): int {
    match r
    case Ace => 1
    case Two => 2
    case Three => 3
    case Four => 4
    case Five => 5
    case Six => 6
    case Seven => 7
    case Eight => 8
    case Nine => 9
    case Ten => 10
    case Jack => 10
    case Queen => 10
  }

  /** Points a card is worth at the end of the game: lower is better. */
  function Value(c: Card): (v: int)
    ensures -1 <= v <= 10
    ensures v < 0 <==> c.King? && IsRed(c.suit)
    ensures v == 0 <==> c.Joker?
  {
    match c
    case Ranked(r, _) => RankValue(r)
    case King(s) => if IsRed(s) then -1 else 10
    case Joker => 0
  }

  // ---------------------------------------------------------------------------
  // The textual form of a card and the point table keyed by it.
  // ---------------------------------------------------------------------------

  /** The ranks in the order the deck is built. */
  const RankOrder: seq<Rank> := [Ace, Two, Three, Four, Five, Six, Seven, Eight, Nine, Ten, Jack, Queen]

  function SuitSymbol(s: Suit): char {
    match s
    case Spades => '♠'
    case Hearts => '♥'
    case Diamonds => '♦'
    case Clubs => '♣'
  }

  predicate IsSuitSymbol(ch: char) {
    ch == '♠' || ch == '♥' || ch == '♦' || ch == '♣'
  }

  function RankText(r: Rank): string {
    match r
    case Ace => "A"
    case Two => "2"
    case Three => "3"
    case Four => "4"
    case Five => "5"
    case Six => "6"
    case Seven => "7"
    case Eight => "8"
    case Nine => "9"
    case Ten => "10"
    case Jack => "J"
    case Queen => "Q"
  }

  /** The string the room record stores for a card: rank then suit symbol, "K" then suit, or "JOKER". */
  function CardText(c: Card): string {
    match c
    case Ranked(r, s) => RankText(r) + [SuitSymbol(s)]
    case King(s) => "K" + [SuitSymbol(s)]
    case Joker => "JOKER"
  }

  /** The point table keyed by rank text, with the four Kings and the Joker keyed by their full text. */
  const CardValues: map<string, int> := map[
    "A" := 1, "2" := 2, "3" := 3, "4" := 4, "5" := 5, "6" := 6, "7" := 7, "8" := 8, "9" := 9, "10" := 10,
    "J" := 10, "Q" := 10, "K♠" := 10, "K♣" := 10, "K♥" := -1, "K♦" := -1, "JOKER" := 0]

  /** A table lookup in which a missing key reads as 0, as `undefined` does in a `||` chain. */
  function Lookup(key: string): int {
    if key in CardValues then CardValues[key] else 0
  }

  /** The text with every suit symbol removed. */
  function StripSuits(text: string): (r: string)
    ensures |r| <= |text|
    ensures forall i :: 0 <= i < |r| ==> !IsSuitSymbol(r[i])
  {
    if |text| == 0 then ""
    else if IsSuitSymbol(text[0]) then StripSuits(text[1..])
    else [text[0]] + StripSuits(text[1..])
  }

  /**
   * The points of one card read from its text: strip the suit to get the rank; a "K" with a red suit
   * symbol is worth -1; otherwise the first non-zero of the table entry for the rank and the table
   * entry for the whole text, else 0.
   */
  function TableValue(text: string): int {
    var rank := StripSuits(text);
    if rank == "K" && ('♥' in text || '♦' in text) then -1
    else if Lookup(rank) != 0 then Lookup(rank)
    else Lookup(text)
  }

  lemma StripRankText(r: Rank)
    ensures StripSuits(RankText(r)) == RankText(r)
  {
  }

  lemma {:induction false} StripAppendSymbol(text: string, s: Suit)
    ensures StripSuits(text + [SuitSymbol(s)]) == StripSuits(text)
    decreases |text|
  {
    if |text| == 0 {
      assert text + [SuitSymbol(s)] == [SuitSymbol(s)];
      assert [SuitSymbol(s)][1..] == "";
    } else {
      assert (text + [SuitSymbol(s)])[0] == text[0];
      assert (text + [SuitSymbol(s)])[1..] == text[1..] + [SuitSymbol(s)];
      StripAppendSymbol(text[1..], s);
    }
  }

  lemma RankLookup(r: Rank)
    ensures RankText(r) != "K"
    ensures Lookup(RankText(r)) == RankValue(r)
  {
    match r
    case Ace | Two | Three | Four | Five | Six => LowRankLookup(r);
    case Seven | Eight | Nine | Ten | Jack | Queen => HighRankLookup(r);
  }

  /** `RankLookup` for the ranks up to six, kept apart so that each half stays a small proof. */
  lemma LowRankLookup(r: Rank)
    requires r in {Ace, Two, Three, Four, Five, Six}
    ensures RankText(r) != "K"
    ensures Lookup(RankText(r)) == RankValue(r)
  {
    match r
    case Ace => case Two => case Three => case Four => case Five => case Six =>
    case Seven => case Eight => case Nine => case Ten => case Jack => case Queen =>
  }

  /** `RankLookup` for the ranks from seven to the Queen. */
  lemma HighRankLookup(r: Rank)
    requires r in {Seven, Eight, Nine, Ten, Jack, Queen}
    ensures RankText(r) != "K"
    ensures Lookup(RankText(r)) == RankValue(r)
  {
    match r
    case Ace => case Two => case Three => case Four => case Five => case Six =>
    case Seven => case Eight => case Nine => case Ten => case Jack => case Queen =>
  }

  lemma RankedTableValue(r: Rank, s: Suit)
    ensures TableValue(CardText(Ranked(r, s))) == RankValue(r)
  {
    StripAppendSymbol(RankText(r), s);
    StripRankText(r);
    RankLookup(r);
  }

  lemma KingTableValue(s: Suit)
    ensures TableValue(CardText(King(s))) == if IsRed(s) then -1 else 10
  {
    StripAppendSymbol("K", s);
    var text := CardText(King(s));
    assert StripSuits(text) == "K";
    assert text == ['K', SuitSymbol(s)];
    match s
    case Spades => assert '♥' !in text && '♦' !in text; assert Lookup("K") == 0;
    case Clubs => assert '♥' !in text && '♦' !in text; assert Lookup("K") == 0;
    case Hearts => assert '♥' in text;
    case Diamonds => assert '♦' in text;
  }

  /** The point table and the colour rule for Kings give every card the value `Value` assigns it. */
  lemma TableAgreesWithValue(c: Card)
    ensures TableValue(CardText(c)) == Value(c)
  {
    match c
    case Ranked(r, s) => RankedTableValue(r, s);
    case King(s) => KingTableValue(s);
    case Joker => assert StripSuits("JOKER") == "JOKER";
  }

  // ---------------------------------------------------------------------------
  // The deck.
  // ---------------------------------------------------------------------------

  /** The position of a rank in the order the deck is built. */
  function RankIndex(r: Rank): (i: nat)
    ensures i < |RankOrder| && RankOrder[i] == r
  {
    match r
    case Ace => 0 case Two => 1 case Three => 2 case Four => 3 case Five => 4 case Six => 5
    case Seven => 6 case Eight => 7 case Nine => 8 case Ten => 9 case Jack => 10 case Queen => 11
  }

  lemma RankOrderDistinct(i: int, j: int)
    requires 0 <= i < j < |RankOrder|
    ensures RankOrder[i] != RankOrder[j]
  {
  }

  /** The twelve ranked cards of one suit, Ace first. */
  function SuitRun(s: Suit): seq<Card> {
    seq(|RankOrder|, i requires 0 <= i < |RankOrder| => Ranked(RankOrder[i], s))
  }

  /** The deck before shuffling: the runs of the four suits, the four Kings, then two Jokers. */
  function FreshDeck(): seq<Card> {
    SuitRun(Spades) + SuitRun(Hearts) + SuitRun(Diamonds) + SuitRun(Clubs)
    + [King(Hearts), King(Diamonds), King(Spades), King(Clubs)]
    + [Joker, Joker]
  }

  /** How many copies of a card the game is played with. */
  function Copies(c: Card): nat {
    if c.Joker? then 2 else 1
  }

  /** A shuffled deck: any ordering of the fixed 54 cards. */
  ghost predicate IsShuffle(deck: seq<Card>) {
    multiset(deck) == multiset(FreshDeck())
  }

  /** In a sequence without repetitions every element occurs once. */
  lemma {:induction false} CountWithoutRepeats<T>(s: seq<T>, x: T)
    requires forall i, j :: 0 <= i < j < |s| ==> s[i] != s[j]
    ensures multiset(s)[x] == if x in s then 1 else 0
  {
    if |s| > 0 {
      assert s == [s[0]] + s[1..];
      assert s[0] !in s[1..] by {
        forall k | 0 <= k < |s[1..]| ensures s[1..][k] != s[0] {
          assert s[1..][k] == s[k + 1];
        }
      }
      CountWithoutRepeats(s[1..], x);
    }
  }

  lemma SuitRunCount(s: Suit, c: Card)
    ensures multiset(SuitRun(s))[c] == if c.Ranked? && c.suit == s then 1 else 0
  {
    var run := SuitRun(s);
    forall i, j | 0 <= i < j < |run| ensures run[i] != run[j] {
      RankOrderDistinct(i, j);
    }
    CountWithoutRepeats(run, c);
    if c.Ranked? && c.suit == s {
      assert run[RankIndex(c.rank)] == c;
    }
  }

  /** The unshuffled deck holds every card of the game exactly as often as it is played with. */
  lemma FreshDeckComposition(c: Card)
    ensures |FreshDeck()| == 54
    ensures multiset(FreshDeck())[c] == Copies(c)
  {
    SuitRunCount(Spades, c);
    SuitRunCount(Hearts, c);
    SuitRunCount(Diamonds, c);
    SuitRunCount(Clubs, c);
    var kings := [King(Hearts), King(Diamonds), King(Spades), King(Clubs)];
    var jokers := [Joker, Joker];
    CountWithoutRepeats(kings, c);
    if c.King? {
      assert kings[match c.suit case Hearts => 0 case Diamonds => 1 case Spades => 2 case Clubs => 3] == c;
    }
    assert multiset(kings)[c] == if c.King? then 1 else 0;
    assert multiset(jokers)[c] == if c.Joker? then 2 else 0;
    assert multiset(FreshDeck()) == multiset(SuitRun(Spades)) + multiset(SuitRun(Hearts)) + multiset(SuitRun(Diamonds))
      + multiset(SuitRun(Clubs)) + multiset(kings) + multiset(jokers);
  }

  /** Shuffling only reorders: a shuffled deck has 54 cards with the same multiplicities. */
  lemma ShuffleComposition(deck: seq<Card>, c: Card)
    requires IsShuffle(deck)
    ensures |deck| == 54
    ensures multiset(deck)[c] == Copies(c)
  {
    FreshDeckComposition(c);
    assert |multiset(deck)| == |multiset(FreshDeck())|;
  }
}

=== FILE: final_round.dfy ===
/**
 * The final round after a Cambio call: the turn keeps going round the join order, and the game ends
 * when the turn would come back to the caller, so every other player gets exactly one more turn.
 */
module FinalRound {
  import opened Wrappers
  import opened Rooms
  import opened Actions

  /** The record is in a final round that is still running, with both positions inside the join order. */
  predicate Counting(r: Room) {
    && Seated(r)
    && r.finalRound && !r.gameOver
    && r.cambioCallerIndex.Some?
    && 0 <= r.currentPlayerIndex < |r.playerOrder|
    && 0 <= r.cambioCallerIndex.value < |r.playerOrder|
    && r.cambioCallerIndex.value != r.currentPlayerIndex
  }

  /** `x` taken back into `0..n` when it has gone round the join order at most once. */
  function Wrap(x: int, n: int): int {
    if x < n then x else x - n
  }

  /** How many positions forward from the current player the Cambio caller sits. */
  function TurnsLeft(r: Room): (t: nat)
    requires r.cambioCallerIndex.Some?
    requires 0 <= r.currentPlayerIndex < |r.playerOrder| && 0 <= r.cambioCallerIndex.value < |r.playerOrder|
    ensures t < |r.playerOrder|
    ensures t == 0 <==> r.cambioCallerIndex.value == r.currentPlayerIndex
    ensures Wrap(r.currentPlayerIndex + t, |r.playerOrder|) == r.cambioCallerIndex.value
  {
    var i, c, n := r.currentPlayerIndex, r.cambioCallerIndex.value, |r.playerOrder|;
    if i <= c then c - i else c - i + n
  }

  /**
   * Passing the turn in a running final round: the game ends exactly when the caller is next, and
   * otherwise the caller comes one position closer.
   */
  lemma NextTurnCountsDown(r: Room)
    requires Counting(r)
    ensures NextTurn(r).gameOver <==> TurnsLeft(r) == 1
    ensures !NextTurn(r).gameOver ==> Counting(NextTurn(r)) && TurnsLeft(NextTurn(r)) == TurnsLeft(r) - 1
  {
  }

  /** Calling Cambio starts the final round with every other player still to play. */
  lemma CambioStartsCountdown(r: Room, me: PlayerId)
    requires Seating(r) && TurnState(r) && Offered(r, me, Cambio) && CallCambio(r, me).Success?
    ensures Counting(CallCambio(r, me).value)
    ensures TurnsLeft(CallCambio(r, me).value) == |r.playerOrder| - 1
    ensures CallCambio(r, me).value.playerOrder == r.playerOrder
  {
    assert IndexOf(r.playerOrder, me) == r.currentPlayerIndex;
  }

  /**
   * The turn passed with the record read before the call is the turn passed on the updated record:
   * with two or more players the next position cannot be the caller's own.
   */
  lemma CallCambioPassesTurn(r: Room, me: PlayerId)
    requires Seating(r) && TurnState(r) && Offered(r, me, Cambio) && CallCambio(r, me).Success?
    ensures CallCambio(r, me).value
         == NextTurn(r.(finalRound := true, cambioCaller := Some(me), cambioCallerIndex := Some(IndexOf(r.playerOrder, me))))
  {
    var i := r.currentPlayerIndex;
    assert IndexOf(r.playerOrder, me) == i;
    var called := r.(finalRound := true, cambioCaller := Some(me), cambioCallerIndex := Some(i));
    assert NextTurn(called).currentPlayerIndex != i;
  }

  /** Drawing in a running final round moves no position: the caller is as far away as before. */
  lemma DrawKeepsCountdown(r: Room, me: PlayerId)
    requires Valid(r) && r.finalRound && !r.gameOver && Offered(r, me, Draw) && DrawCard(r, me).Success?
    ensures Counting(r) && Counting(DrawCard(r, me).value)
    ensures TurnsLeft(DrawCard(r, me).value) == TurnsLeft(r)
  {
  }

  /**
   * Completing a turn of a running final round, by swapping or discarding the drawn card, ends the
   * game exactly when the caller is next, and otherwise brings the caller one position closer.
   */
  lemma CompletedTurnCountsDown(r: Room, me: PlayerId, a: Action)
    requires Valid(r) && r.finalRound && !r.gameOver
    requires a == Discard || a.Swap?
    requires Offered(r, me, a) && Apply(r, me, a).Success?
    ensures Counting(r)
    ensures Apply(r, me, a).value.gameOver <==> TurnsLeft(r) == 1
    ensures !Apply(r, me, a).value.gameOver ==>
      Counting(Apply(r, me, a).value) && TurnsLeft(Apply(r, me, a).value) == TurnsLeft(r) - 1
  {
    var c := r.drawnCard.value;
    var resolved := if a == Discard then r.(discardPile := r.discardPile + [c], drawnCard := None, drawnBy := None)
                    else PlaceDrawn(r, me, a.slot, c);
    assert Apply(r, me, a).value == NextTurn(resolved);
    assert TurnsLeft(resolved) == TurnsLeft(r);
    NextTurnCountsDown(resolved);
  }

  /** The record after the turn has been passed `k` times, stopping once the game is over. */
  function Advance(r: Room, k: nat): (r': Room)
    requires Seated(r) && 0 <= r.currentPlayerIndex
    ensures Seated(r') && 0 <= r'.currentPlayerIndex && r'.playerOrder == r.playerOrder
    ensures r'.cambioCallerIndex == r.cambioCallerIndex && r'.finalRound == r.finalRound
    decreases k
  {
    if k == 0 || r.gameOver then r else Advance(NextTurn(r), k - 1)
  }

  /** Each pass of the turn brings the caller one position closer, and the last pass ends the game. */
  lemma {:induction false} AdvanceCountsDown(r: Room, k: nat)
    requires Counting(r) && k <= TurnsLeft(r)
    ensures k < TurnsLeft(r) ==>
      && Counting(Advance(r, k))
      && TurnsLeft(Advance(r, k)) == TurnsLeft(r) - k
      && Advance(r, k).currentPlayerIndex == Wrap(r.currentPlayerIndex + k, |r.playerOrder|)
    ensures k == TurnsLeft(r) ==> Advance(r, k).gameOver
    decreases k
  {
    if k > 0 {
      NextTurnCountsDown(r);
      var r1 := NextTurn(r);
      assert Advance(r, k) == Advance(r1, k - 1);
      if !r1.gameOver {
        AdvanceCountsDown(r1, k - 1);
        var i, n := r.currentPlayerIndex, |r.playerOrder|;
        assert r1.currentPlayerIndex == Wrap(i + 1, n);
      } else {
        assert k == 1;
      }
    }
  }

  /** Starting from `r1`, the next `n - 1` turns go to positions c+1, c+2, ... (wrapping), never to `c`. */
  predicate OthersPlayInTurn(r1: Room, c: int, n: int)
    requires Seated(r1) && 0 <= r1.currentPlayerIndex
  {
    forall k :: 0 <= k < n - 1 ==>
      && !Advance(r1, k).gameOver
      && Advance(r1, k).currentPlayerIndex == Wrap(c + 1 + k, n)
      && Advance(r1, k).currentPlayerIndex != c
  }

  /**
   * A final round among `n` players that starts with every player but the caller at position `c`
   * still to play gives each of them one turn in order, never the caller, and is over once they
   * have played.
   */
  lemma FullFinalRound(r1: Room, c: nat, n: nat)
    requires Counting(r1) && r1.cambioCallerIndex == Some(c) && n == |r1.playerOrder| && TurnsLeft(r1) == n - 1
    ensures OthersPlayInTurn(r1, c, n)
    ensures Advance(r1, n - 1).gameOver
  {
    OthersPlay(r1);
    FinalRoundEnds(r1);
  }

  /** A full final round is over after its `n - 1` passes. */
  lemma FinalRoundEnds(r1: Room)
    requires Counting(r1) && TurnsLeft(r1) == |r1.playerOrder| - 1
    ensures Advance(r1, |r1.playerOrder| - 1).gameOver
  {
    AdvanceEnds(r1, TurnsLeft(r1));
  }

  /** Passing the turn as many times as the caller is away ends the game. */
  lemma {:induction false} AdvanceEnds(r: Room, k: nat)
    requires Counting(r) && k == TurnsLeft(r)
    ensures Advance(r, k).gameOver
    decreases k
  {
    NextTurnCountsDown(r);
    var r1 := NextTurn(r);
    assert Advance(r, k) == Advance(r1, k - 1);
    if !r1.gameOver {
      AdvanceEnds(r1, k - 1);
    }
  }

  /** Each of the `n - 1` passes of a full final round goes to a player other than the caller. */
  lemma OthersPlay(r1: Room)
    requires Counting(r1) && TurnsLeft(r1) == |r1.playerOrder| - 1
    ensures OthersPlayInTurn(r1, r1.cambioCallerIndex.value, |r1.playerOrder|)
  {
    var c, n := r1.cambioCallerIndex.value, |r1.playerOrder|;
    forall k | 0 <= k < n - 1
      ensures !Advance(r1, k).gameOver
      ensures Advance(r1, k).currentPlayerIndex == Wrap(c + 1 + k, n)
      ensures Advance(r1, k).currentPlayerIndex != c
    {
      OtherPlaysKth(r1, k);
    }
  }

  /** The `k`-th turn of a full final round goes to the position `k + 1` after the caller's. */
  lemma OtherPlaysKth(r1: Room, k: nat)
    requires Counting(r1) && TurnsLeft(r1) == |r1.playerOrder| - 1 && k < |r1.playerOrder| - 1
    ensures !Advance(r1, k).gameOver
    ensures Advance(r1, k).currentPlayerIndex == Wrap(r1.cambioCallerIndex.value + 1 + k, |r1.playerOrder|)
    ensures Advance(r1, k).currentPlayerIndex != r1.cambioCallerIndex.value
  {
    var c, n := r1.cambioCallerIndex.value, |r1.playerOrder|;
    assert r1.currentPlayerIndex == Wrap(c + 1, n);
    AdvanceCountsDown(r1, k);
  }

  /** After a Cambio call, every other player gets exactly one more turn and the caller none. */
  lemma CambioGivesEveryoneElseOneTurn(r: Room, me: PlayerId)
    requires Seating(r) && TurnState(r) && Offered(r, me, Cambio) && CallCambio(r, me).Success?
    ensures OthersPlayInTurn(CallCambio(r, me).value, IndexOf(r.playerOrder, me), |r.playerOrder|)
    ensures Advance(CallCambio(r, me).value, |r.playerOrder| - 1).gameOver
  {
    CambioStartsCountdown(r, me);
    FullFinalRound(CallCambio(r, me).value, IndexOf(r.playerOrder, me), |r.playerOrder|);
  }
}

=== FILE: findings.dfy ===
/**
 * Three handlers as the game component writes them, next to the corrected handlers of `Actions`.
 *
 *  - The look: the write that hides slots 0 and 1 after the reveal window hands the store a list
 *    where it wants an object, so it throws, the slots stay face up, and the check that everyone has
 *    looked never runs. Even with that write corrected, the check reads the record from before the
 *    player's own mark, so the initial view never gives way to play.
 *  - The swap: on the last turn of the final round, passing the turn ends the game from the record
 *    before the swap. The swap is undone, the drawn card disappears, and the replaced card is both in
 *    the hand and on the discard pile.
 *  - The swap and the discard: the store keeps no empty list, so the empty discard pile a room is
 *    created with reads back as missing, and spreading it into the new pile throws before anything
 *    is written. The first swap or discard of a match is refused, the drawn card stays held, and the
 *    pile never starts.
 *
 * Each fault hides the next: the pile fault is reached only once play can begin, and the swap fault
 * only once a card is on the pile.
 */
module Findings {
  import opened Wrappers
  import opened Cards
  import opened Rooms
  import opened Actions
  import Invariants

  // ---------------------------------------------------------------------------
  // The initial view.
  // ---------------------------------------------------------------------------

  /** Slots 0 and 1 face up, the rest as they were: the hand the look writes when the window opens. */
  function ShowFirstTwo(cards: seq<Slot>): (shown: seq<Slot>)
    requires |cards| >= 2
    ensures |shown| == |cards| && CardsOf(shown) == CardsOf(cards)
    ensures shown[0].visible && shown[1].visible
    ensures forall i :: 2 <= i < |cards| ==> shown[i] == cards[i]
  {
    cards[0 := cards[0].(visible := true)][1 := cards[1].(visible := true)]
  }

  /**
   * The initial-view handler as written. The first write lands: slots 0 and 1 face up and the player
   * marked. The write after the window passes the hand as a list where the store's `update` wants
   * an object of children, so it throws, and the callback stops before it hides the slots or runs
   * the check that everyone has looked.
   */
  function ViewInitialCardsAsWritten(r: Room, me: PlayerId): (res: Result<Room, Reason>)
    requires r.phase == InitialView && me in r.players
    ensures res.Failure? <==> r.players[me].hasViewedInitial || |r.players[me].cards| < 2
    ensures res.Success? ==>
      && res.value.phase == InitialView
      && res.value.players.Keys == r.players.Keys
      && res.value.players[me].hasViewedInitial
      && CardsOf(res.value.players[me].cards) == CardsOf(r.players[me].cards)
      && res.value.players[me].cards[0].visible && res.value.players[me].cards[1].visible
      && (forall p :: p in r.players && p != me ==> res.value.players[p] == r.players[p])
    ensures res.Success? ==> res.value == r.(players := res.value.players)
  {
    var p := r.players[me];
    if p.hasViewedInitial then Failure(AlreadyViewed)
    else if |p.cards| < 2 then Failure(NoInitialCards)
    else Success(r.(players := r.players[me := p.(cards := ShowFirstTwo(p.cards), hasViewedInitial := true)]))
  }

  /**
   * The look with the write after the window corrected to a write the store accepts. The slots are
   * hidden again, but the gate still reads the record from before the player's own mark.
   */
  function ViewInitialCardsStaleGate(r: Room, me: PlayerId): (res: Result<Room, Reason>)
    requires r.phase == InitialView && me in r.players
    ensures res.Failure? <==> r.players[me].hasViewedInitial || |r.players[me].cards| < 2
    ensures res.Success? ==> (res.value.phase == Playing <==> AllViewed(r))
    ensures res.Success? ==>
      && res.value.players.Keys == r.players.Keys
      && res.value.players[me].hasViewedInitial
      && res.value.players[me].cards == HideFirstTwo(r.players[me].cards)
      && (forall p :: p in r.players && p != me ==> res.value.players[p] == r.players[p])
  {
    var p := r.players[me];
    if p.hasViewedInitial then Failure(AlreadyViewed)
    else if |p.cards| < 2 then Failure(NoInitialCards)
    else
      var viewed := r.(players := r.players[me := p.(cards := HideFirstTwo(p.cards), hasViewedInitial := true)]);
      Success(if AllViewed(r) then viewed.(phase := Playing) else viewed)
  }

  /**
   * With the write after the window corrected, a player's look still never starts play: in the
   * record the gate reads, that player has not looked.
   */
  lemma StaleGateNeverOpens(r: Room, me: PlayerId)
    requires r.phase == InitialView && me in r.players && me in r.playerOrder
    ensures ViewInitialCardsStaleGate(r, me).Success? ==> ViewInitialCardsStaleGate(r, me).value.phase == InitialView
  {
    if ViewInitialCardsStaleGate(r, me).Success? {
      assert !r.players[me].hasViewedInitial;
    }
  }

  /**
   * When the last player looks, the corrected handler starts play. As written, the record is left
   * with everyone marked, the looker's first two cards face up, play not started, and the only
   * action the screens offer, looking again, refused to every player. Correcting the write after
   * the window alone does not help: the stale gate still leaves play unstarted.
   */
  lemma LastViewerLeavesGameStuck(r: Room, me: PlayerId)
    requires Seating(r) && r.phase == InitialView && me in r.players
    requires !r.players[me].hasViewedInitial && |r.players[me].cards| >= 2
    requires forall p :: p in r.players && p != me ==> r.players[p].hasViewedInitial
    ensures ViewInitialCards(r, me).Success? && ViewInitialCards(r, me).value.phase == Playing
    ensures ViewInitialCardsAsWritten(r, me).Success?
    ensures var s := ViewInitialCardsAsWritten(r, me).value;
      && s.phase == InitialView && AllViewed(s)
      && s.players[me].cards[0].visible && s.players[me].cards[1].visible
      && (forall p, a :: Offered(s, p, a) ==> a == ViewInitial && ViewInitialCardsAsWritten(s, p).Failure?)
    ensures ViewInitialCardsStaleGate(r, me).Success? && ViewInitialCardsStaleGate(r, me).value.phase == InitialView
  {
    var s := ViewInitialCardsAsWritten(r, me).value;
    assert me in r.playerOrder;
    StaleGateNeverOpens(r, me);
    assert AllViewed(s) by {
      forall p | p in s.playerOrder ensures p in s.players && s.players[p].hasViewedInitial {
        assert p in r.players;
      }
    }
  }

  // ---------------------------------------------------------------------------
  // The swap on the last turn of the final round.
  // ---------------------------------------------------------------------------

  /** Passing the turn from `r` ends the game: the final round is on and the caller is next. */
  predicate EndsOnPass(r: Room)
    requires Seated(r) && 0 <= r.currentPlayerIndex
  {
    r.finalRound && r.cambioCallerIndex == Some(Successor(r.currentPlayerIndex, |r.playerOrder|))
  }

  /**
   * The swap handler as written: an empty pile makes the handler throw before writing; otherwise the
   * swap's writes land, then the turn is passed on the record read before the swap, and when that
   * ends the game the ending overwrites every hand from that record.
   */
  function SwapCardAsWritten(r: Room, me: PlayerId, k: int): (res: Result<Room, Reason>)
    requires r.phase == Playing && !r.gameOver && IsMyTurn(r, me)
    requires me in r.players && 0 <= k < |r.players[me].cards|
    requires Seated(r) && 0 <= r.currentPlayerIndex
    ensures res.Failure? <==> HeldCard(r, me).None? || r.discardPile == []
    ensures res.Success? ==>
      && res.value.discardPile == r.discardPile + [r.players[me].cards[k].card]
      && res.value.drawnCard.None?
      && (res.value.gameOver <==> EndsOnPass(r))
  {
    match HeldCard(r, me)
    case None => Failure(NothingDrawn)
    case Some(c) =>
      if r.discardPile == [] then Failure(NoDiscardPile)
      else
        var placed := PlaceDrawn(r, me, k, c);
        if EndsOnPass(r) then
          var ended := EndGame(r);
          Success(placed.(players := ended.players, gameOver := true, winner := ended.winner, finalScores := ended.finalScores))
        else Success(NextTurn(placed))
  }

  /** Except when the swap ends the game or the pile is empty, the handler as written does what the corrected one does. */
  lemma SwapAsWrittenAgreesOffLastTurn(r: Room, me: PlayerId, k: int)
    requires r.phase == Playing && !r.gameOver && IsMyTurn(r, me)
    requires me in r.players && 0 <= k < |r.players[me].cards|
    requires Seated(r) && 0 <= r.currentPlayerIndex
    requires !EndsOnPass(r) && r.discardPile != []
    ensures SwapCardAsWritten(r, me, k) == SwapCard(r, me, k)
  {
  }

  /** As written, the last turn's swap keeps the replaced card in play twice and the drawn card not at all. */
  lemma FinalSwapCards(r: Room, me: PlayerId, k: int)
    requires r.phase == Playing && !r.gameOver && IsMyTurn(r, me)
    requires me in r.players && 0 <= k < |r.players[me].cards|
    requires Seated(r) && 0 <= r.currentPlayerIndex
    requires HeldCard(r, me).Some? && EndsOnPass(r) && r.discardPile != []
    ensures var s := SwapCardAsWritten(r, me, k).value;
      CardsInPlay(s) + multiset{r.drawnCard.value} == CardsInPlay(r) + multiset{r.players[me].cards[k].card}
  {
    var rest := multiset(r.deck) + Hands(r.playerOrder, r.players) + multiset(r.discardPile);
    FinalSwapLeaves(r, me, k);
    assert CardsInPlay(r) == rest + multiset{r.drawnCard.value};
  }

  lemma FinalSwapLeaves(r: Room, me: PlayerId, k: int)
    requires r.phase == Playing && !r.gameOver && IsMyTurn(r, me)
    requires me in r.players && 0 <= k < |r.players[me].cards|
    requires Seated(r) && 0 <= r.currentPlayerIndex
    requires HeldCard(r, me).Some? && EndsOnPass(r) && r.discardPile != []
    ensures CardsInPlay(SwapCardAsWritten(r, me, k).value)
         == multiset(r.deck) + Hands(r.playerOrder, r.players) + multiset(r.discardPile) + multiset{r.players[me].cards[k].card}
  {
    var s := SwapCardAsWritten(r, me, k).value;
    assert s.players == EndGame(r).players && s.deck == r.deck && s.playerOrder == r.playerOrder;
    EndingKeepsHands(r);
  }

  /** As written, the swap on the last turn is undone: the hand ends as it was before the swap. */
  lemma FinalSwapUndone(r: Room, me: PlayerId, k: int)
    requires r.phase == Playing && !r.gameOver && IsMyTurn(r, me)
    requires me in r.players && 0 <= k < |r.players[me].cards|
    requires Seated(r) && 0 <= r.currentPlayerIndex
    requires HeldCard(r, me).Some? && EndsOnPass(r) && r.discardPile != []
    ensures CardsOf(SwapCardAsWritten(r, me, k).value.players[me].cards) == CardsOf(r.players[me].cards)
  {
    assert SwapCardAsWritten(r, me, k).value.players == EndGame(r).players;
  }

  /** Revealing the hands at the end moves no card. */
  lemma EndingKeepsHands(r: Room)
    requires Seated(r)
    ensures Hands(r.playerOrder, EndGame(r).players) == Hands(r.playerOrder, r.players)
  {
    HandsAgree(r.playerOrder, EndGame(r).players, r.players);
  }

  /** One more copy of `d` on one side of an equation of multisets means one fewer on the other. */
  lemma CountShift(a: multiset<Card>, b: multiset<Card>, d: Card, x: Card)
    requires a + multiset{d} == b + multiset{x} && d != x
    ensures a[d] + 1 == b[d]
  {
    assert (a + multiset{d})[d] == (b + multiset{x})[d];
  }

  /** The corrected swap on the last turn ends the game with the drawn card in the hand. */
  lemma FinalSwapCorrected(r: Room, me: PlayerId, k: int)
    requires r.phase == Playing && !r.gameOver && IsMyTurn(r, me)
    requires me in r.players && 0 <= k < |r.players[me].cards|
    requires Seated(r) && 0 <= r.currentPlayerIndex
    requires HeldCard(r, me).Some? && EndsOnPass(r)
    ensures var t := SwapCard(r, me, k).value;
      && t.gameOver
      && CardsOf(t.players[me].cards) == CardsOf(r.players[me].cards[k := Slot(r.drawnCard.value, false)])
  {
    var placed := PlaceDrawn(r, me, k, r.drawnCard.value);
    assert SwapCard(r, me, k).value == NextTurn(placed);
  }

  /**
   * On the last turn of the final round, with a card already on the pile, swapping a drawn card into
   * a slot holding a different card loses a card, as written: the player's hand is what it was
   * before the swap, the replaced card is also on the discard pile, and the drawn card is nowhere.
   * The corrected handler keeps every card and the hand holds the drawn card.
   */
  lemma FinalSwapBreaksConservation(r: Room, me: PlayerId, k: int)
    requires Valid(r) && Offered(r, me, Swap(k)) && HeldCard(r, me).Some? && EndsOnPass(r) && r.discardPile != []
    requires r.drawnCard.value != r.players[me].cards[k].card
    ensures var s := SwapCardAsWritten(r, me, k).value;
      && s.gameOver
      && CardsOf(s.players[me].cards) == CardsOf(r.players[me].cards)
      && s.discardPile[|s.discardPile| - 1] == r.players[me].cards[k].card
      && !Conserved(s)
    ensures var t := SwapCard(r, me, k).value;
      && t.gameOver
      && CardsOf(t.players[me].cards) == CardsOf(r.players[me].cards[k := Slot(r.drawnCard.value, false)])
      && Conserved(t)
  {
    var s := SwapCardAsWritten(r, me, k).value;
    var drawn := r.drawnCard.value;
    FinalSwapCards(r, me, k);
    FinalSwapUndone(r, me, k);
    CountShift(CardsInPlay(s), CardsInPlay(r), drawn, r.players[me].cards[k].card);
    FinalSwapCorrected(r, me, k);
    Invariants.SwapValid(r, me, k);
  }

  // ---------------------------------------------------------------------------
  // The first card onto the discard pile.
  // ---------------------------------------------------------------------------

  /** The discard handler as written: spreading an empty pile, which the store holds as missing, throws before any write. */
  function DiscardDrawnAsWritten(r: Room, me: PlayerId): (res: Result<Room, Reason>)
    requires r.phase == Playing && !r.gameOver
    requires Seated(r) && 0 <= r.currentPlayerIndex
    ensures res.Failure? <==> HeldCard(r, me).None? || r.discardPile == []
    ensures res.Success? ==> res.value.discardPile == r.discardPile + [r.drawnCard.value] && res.value.drawnCard.None?
  {
    match HeldCard(r, me)
    case None => Failure(NothingDrawn)
    case Some(c) =>
      if r.discardPile == [] then Failure(NoDiscardPile)
      else Success(NextTurn(r.(discardPile := r.discardPile + [c], drawnCard := None, drawnBy := None)))
  }

  /**
   * Every action with the swap and the discard as written. The look is taken as corrected, so that
   * play can begin at all.
   */
  function ApplyPileAsWritten(r: Room, me: PlayerId, a: Action): Result<Room, Reason>
    requires Valid(r) && Offered(r, me, a)
  {
    match a
    case Swap(k) => SwapCardAsWritten(r, me, k)
    case Discard => DiscardDrawnAsWritten(r, me)
    case _ => Apply(r, me, a)
  }

  /** As written, no action puts a first card on an empty pile. */
  lemma PileStaysEmpty(r: Room, me: PlayerId, a: Action)
    requires Valid(r) && Offered(r, me, a) && r.discardPile == []
    ensures ApplyPileAsWritten(r, me, a).Success? ==> ApplyPileAsWritten(r, me, a).value.discardPile == []
  {
  }

  /**
   * As written, a card drawn while the pile is empty can never be played: every action any screen
   * offers is refused to every player, while the drawn card stays held.
   */
  lemma DrawnCardStranded(r: Room)
    requires Valid(r) && r.discardPile == [] && r.drawnCard.Some?
    ensures forall p, a :: Offered(r, p, a) ==> ApplyPileAsWritten(r, p, a).Failure?
  {
    forall p, a | Offered(r, p, a) ensures ApplyPileAsWritten(r, p, a).Failure? {
      assert r.phase == Playing && r.drawnBy == Some(r.playerOrder[r.currentPlayerIndex]);
      if a == Draw || a == Cambio {
        assert HeldCard(r, p).Some? || !IsMyTurn(r, p);
      }
    }
  }

  /**
   * The first draw of a match strands its card as written, while the corrected discard puts it on
   * the pile and keeps the room valid.
   */
  lemma FirstDrawStrandsCard(r: Room, me: PlayerId)
    requires Valid(r) && r.discardPile == [] && Offered(r, me, Draw) && DrawCard(r, me).Success?
    ensures var s := DrawCard(r, me).value;
      && Valid(s) && s.drawnBy == Some(me)
      && (forall p, a :: Offered(s, p, a) ==> ApplyPileAsWritten(s, p, a).Failure?)
    ensures var s := DrawCard(r, me).value;
      && Offered(s, me, Discard) && Apply(s, me, Discard).Success?
      && Apply(s, me, Discard).value.discardPile == [s.drawnCard.value]
      && Valid(Apply(s, me, Discard).value)
  {
    var s := DrawCard(r, me).value;
    Invariants.DrawValid(r, me);
    DrawnCardStranded(s);
    Invariants.DiscardValid(s, me);
  }
}

=== FILE: invariants.dfy ===
/**
 * Every in-room action a client can offer keeps the room invariant: one outstanding drawn card
 * held by the player whose turn it is, a turn index inside the join order, a final round that
 * keeps its caller, and the same 54 cards spread over deck, hands, discard pile and drawn card.
 */
module Invariants {
  import opened Wrappers
  import opened Cards
  import opened Scoring
  import opened Rooms
  import opened Actions

  lemma CreateGameValid(me: PlayerId, name: string, deck: seq<Card>)
    requires IsShuffle(deck)
    ensures CreateGame(me, name, deck).Success? ==> Valid(CreateGame(me, name, deck).value)
  {
    var res := CreateGame(me, name, deck);
    if res.Success? {
      var r := res.value;
      HandsEmpty(r.playerOrder, r.players);
      forall c ensures CardsInPlay(r)[c] == Copies(c) {
        ShuffleComposition(deck, c);
      }
    }
  }

  /** A fresh session id joining a valid lobby leaves it valid. */
  lemma JoinGameValid(found: Option<Room>, me: PlayerId, name: string, code: string)
    requires found.Some? ==> Valid(found.value) && me !in found.value.players
    ensures JoinGame(found, me, name, code).Success? ==> Valid(JoinGame(found, me, name, code).value)
  {
    var res := JoinGame(found, me, name, code);
    if res.Success? {
      var r, r' := found.value, res.value;
      assert me !in r.playerOrder;
      assert Distinct(r'.playerOrder) by {
        forall i, j | 0 <= i < j < |r'.playerOrder| ensures r'.playerOrder[i] != r'.playerOrder[j] {
          if j == |r.playerOrder| {
            assert r'.playerOrder[i] == r.playerOrder[i];
          }
        }
      }
      assert Seating(r');
      assert TurnState(r');
      JoinKeepsCards(r, me, NewPlayer(name));
    }
  }

  lemma JoinKeepsCards(r: Room, me: PlayerId, newcomer: Player)
    requires me !in r.playerOrder && newcomer.cards == []
    ensures CardsInPlay(r.(playerOrder := r.playerOrder + [me], players := r.players[me := newcomer])) == CardsInPlay(r)
  {
    var players := r.players[me := newcomer];
    HandsAgree(r.playerOrder, players, r.players);
    HandsSnoc(r.playerOrder, players, me);
    assert CardsOf([]) == [];
  }

  /** Dealing moves cards from the top of the deck into the hands without creating or losing any. */
  lemma {:induction false} DealConserves(deck: seq<Card>, order: seq<PlayerId>, players: map<PlayerId, Player>,
                                        dealt: map<PlayerId, Player>)
    requires 4 * |order| <= |deck|
    requires forall p :: p in order ==> p in players
    requires Distinct(order)
    ensures multiset(Deal(deck, order, players, dealt).0) + Hands(order, Deal(deck, order, players, dealt).1)
         == multiset(deck)
    decreases |order|
  {
    if |order| > 0 {
      DistinctTail(order);
      var dealt' := dealt[order[0] := players[order[0]].(cards := TailHand(deck, 0))];
      var rest := deck[..|deck| - 4];
      var res := Deal(deck, order, players, dealt);
      assert res == Deal(rest, order[1..], players, dealt');
      DealConserves(rest, order[1..], players, dealt');
      DealFirstHand(deck, order, res.1, dealt'[order[0]]);
    }
  }

  /** The first player's four cards are the top four of the deck. */
  lemma DealFirstHand(deck: seq<Card>, order: seq<PlayerId>, dealt: map<PlayerId, Player>, first: Player)
    requires 4 <= |deck| && |order| > 0 && order[0] in dealt
    requires dealt[order[0]] == first && first.cards == TailHand(deck, 0)
    ensures Hands(order, dealt) == multiset(CardsOf(first.cards)) + Hands(order[1..], dealt)
    ensures multiset(deck) == multiset(deck[..|deck| - 4]) + multiset(CardsOf(first.cards))
  {
    var n := |deck|;
    assert deck == deck[..n - 4] + [deck[n - 4]] + [deck[n - 3]] + [deck[n - 2]] + [deck[n - 1]];
    assert CardsOf(first.cards) == [deck[n - 1]] + [deck[n - 2]] + [deck[n - 3]] + [deck[n - 4]];
  }

  lemma StartValid(r: Room, me: PlayerId)
    requires Valid(r) && Offered(r, me, Start)
    ensures StartGame(r, me).Success? ==> Valid(StartGame(r, me).value)
  {
    if StartGame(r, me).Success? {
      StartKeepsSeats(r, me);
      StartKeepsCards(r, me);
    }
  }

  lemma StartKeepsSeats(r: Room, me: PlayerId)
    requires Seating(r) && TurnState(r) && r.phase == Lobby && me == r.host
    ensures StartGame(r, me).Success? ==> Seating(StartGame(r, me).value) && TurnState(StartGame(r, me).value)
  {
    var res := StartGame(r, me);
    if res.Success? {
      var r' := res.value;
      forall p | p in r'.players ensures |r'.players[p].cards| == 4 {
        DealtHand(r.deck, r.playerOrder, r.players, map[], IndexOf(r.playerOrder, p));
      }
    }
  }

  lemma StartKeepsCards(r: Room, me: PlayerId)
    requires Seating(r) && r.phase == Lobby && me == r.host
    ensures StartGame(r, me).Success? ==> CardsInPlay(StartGame(r, me).value) == CardsInPlay(r)
  {
    var res := StartGame(r, me);
    if res.Success? {
      var dealt := Deal(r.deck, r.playerOrder, r.players, map[]);
      assert res.value.players == dealt.1 && res.value.deck == dealt.0;
      HandsEmpty(r.playerOrder, r.players);
      DealConserves(r.deck, r.playerOrder, r.players, map[]);
    }
  }

  lemma ViewInitialValid(r: Room, me: PlayerId)
    requires Valid(r) && Offered(r, me, ViewInitial)
    ensures ViewInitialCards(r, me).Success? ==> Valid(ViewInitialCards(r, me).value)
  {
    var res := ViewInitialCards(r, me);
    if res.Success? {
      ViewKeepsSeats(r, me);
      ViewKeepsCards(r, res.value.players);
    }
  }

  lemma ViewKeepsSeats(r: Room, me: PlayerId)
    requires Seating(r) && TurnState(r) && r.phase == InitialView && me in r.players
    ensures ViewInitialCards(r, me).Success? ==>
      Seating(ViewInitialCards(r, me).value) && TurnState(ViewInitialCards(r, me).value)
  {
    var res := ViewInitialCards(r, me);
    if res.Success? {
      var r' := res.value;
      assert r' == r.(players := r'.players, phase := r'.phase);
    }
  }

  lemma ViewKeepsCards(r: Room, players: map<PlayerId, Player>)
    requires players.Keys == r.players.Keys
    requires forall p :: p in players ==> CardsOf(players[p].cards) == CardsOf(r.players[p].cards)
    ensures CardsInPlay(r.(players := players)) == CardsInPlay(r)
  {
    HandsAgree(r.playerOrder, players, r.players);
  }

  /** In a valid room only the player whose turn it is can hold the drawn card. */
  lemma HeldOnlyByCurrent(r: Room, me: PlayerId)
    requires Valid(r) && HeldCard(r, me).Some?
    ensures IsMyTurn(r, me)
  {
  }

  lemma DrawValid(r: Room, me: PlayerId)
    requires Valid(r) && Offered(r, me, Draw)
    ensures DrawCard(r, me).Success? ==> Valid(DrawCard(r, me).value) && r.drawnCard.None?
  {
    var res := DrawCard(r, me);
    if res.Success? {
      var r' := res.value;
      assert r.drawnCard.None?;
      assert multiset(r.deck) == multiset(r'.deck) + multiset{r'.drawnCard.value} by {
        assert r.deck == r'.deck + [r'.drawnCard.value];
      }
      assert CardsInPlay(r') == CardsInPlay(r);
    }
  }

  /** A valid room in play with no drawn card stays valid when the turn passes or the game ends. */
  lemma NextTurnValid(r: Room)
    requires Valid(r) && r.phase == Playing && !r.gameOver && r.drawnCard.None?
    ensures Valid(NextTurn(r))
  {
    var r' := NextTurn(r);
    if r'.gameOver {
      assert r' == EndGame(r);
      HandsAgree(r.playerOrder, r'.players, r.players);
      assert CardsInPlay(r') == CardsInPlay(r);
      forall p | p in r'.players ensures p in r'.playerOrder && |r'.players[p].cards| == 4 {
        assert p in r.playerOrder;
      }
    } else {
      assert r'.players == r.players;
    }
  }

  /** The swap's writes keep every card: the drawn card enters the hand, the replaced one the pile. */
  lemma PlaceDrawnKeepsCards(r: Room, me: PlayerId, k: int)
    requires Distinct(r.playerOrder) && me in r.playerOrder && me in r.players
    requires 0 <= k < |r.players[me].cards| && r.drawnCard.Some?
    ensures CardsInPlay(PlaceDrawn(r, me, k, r.drawnCard.value)) == CardsInPlay(r)
  {
    var c := r.drawnCard.value;
    var r' := PlaceDrawn(r, me, k, c);
    var hand := r.players[me].cards;
    var old_ := hand[k].card;
    HandsUpdate(r.playerOrder, r.players, me, r'.players[me]);
    SlotReplace(hand, k, Slot(c, false));
    var h, h' := Hands(r.playerOrder, r.players), Hands(r'.playerOrder, r'.players);
    var m, m' := multiset(CardsOf(hand)), multiset(CardsOf(r'.players[me].cards));
    MultisetExchange(h', h, m, m', old_, c);
    assert multiset(r'.discardPile) == multiset(r.discardPile) + multiset{old_};
    var rest := multiset(r.deck) + multiset(r.discardPile);
    assert CardsInPlay(r') == rest + (h' + multiset{old_});
    assert CardsInPlay(r) == rest + (h + multiset{c});
  }

  lemma MultisetExchange(h': multiset<Card>, h: multiset<Card>, m: multiset<Card>, m': multiset<Card>, x: Card, y: Card)
    requires h' + m == h + m' && m' + multiset{x} == m + multiset{y}
    ensures h' + multiset{x} == h + multiset{y}
  {
    forall z ensures (h' + multiset{x})[z] == (h + multiset{y})[z] {
      assert (h' + m)[z] == (h + m')[z];
      assert (m' + multiset{x})[z] == (m + multiset{y})[z];
    }
  }

  lemma PlaceDrawnValid(r: Room, me: PlayerId, k: int)
    requires Valid(r) && me in r.players && 0 <= k < |r.players[me].cards| && HeldCard(r, me).Some?
    ensures Valid(PlaceDrawn(r, me, k, r.drawnCard.value))
  {
    var r' := PlaceDrawn(r, me, k, r.drawnCard.value);
    assert Seating(r');
    assert TurnState(r');
    PlaceDrawnKeepsCards(r, me, k);
  }

  lemma SwapValid(r: Room, me: PlayerId, k: int)
    requires Valid(r) && Offered(r, me, Swap(k))
    ensures SwapCard(r, me, k).Success? ==> Valid(SwapCard(r, me, k).value)
  {
    if HeldCard(r, me).Some? {
      PlaceDrawnValid(r, me, k);
      NextTurnValid(PlaceDrawn(r, me, k, r.drawnCard.value));
    }
  }

  lemma DiscardValid(r: Room, me: PlayerId)
    requires Valid(r) && Offered(r, me, Discard)
    ensures DiscardDrawn(r, me).Success? ==> Valid(DiscardDrawn(r, me).value)
  {
    if HeldCard(r, me).Some? {
      var r1 := r.(discardPile := r.discardPile + [r.drawnCard.value], drawnCard := None, drawnBy := None);
      assert CardsInPlay(r1) == CardsInPlay(r);
      NextTurnValid(r1);
    }
  }

  lemma CambioValid(r: Room, me: PlayerId)
    requires Valid(r) && Offered(r, me, Cambio)
    ensures CallCambio(r, me).Success? ==> Valid(CallCambio(r, me).value)
  {
    var res := CallCambio(r, me);
    if res.Success? {
      var r' := res.value;
      CambioKeepsSeats(r, me);
      assert CardsInPlay(r') == CardsInPlay(r) by {
        assert r'.players == r.players && r'.playerOrder == r.playerOrder && r'.deck == r.deck;
        assert r'.discardPile == r.discardPile && r'.drawnCard == r.drawnCard;
      }
    }
  }

  lemma CambioKeepsSeats(r: Room, me: PlayerId)
    requires Seating(r) && TurnState(r) && r.phase == Playing && !r.gameOver && !r.finalRound
    ensures CallCambio(r, me).Success? ==>
      Seating(CallCambio(r, me).value) && TurnState(CallCambio(r, me).value)
  {
    var res := CallCambio(r, me);
    if res.Success? {
      assert IndexOf(r.playerOrder, me) == r.currentPlayerIndex;
    }
  }

  /**
   * Every offered in-room action on a valid room yields a valid room, and the match only moves forward:
   * lobby, initial view, playing, final round, over. Once the final round is on, the caller's
   * position stays what the call recorded.
   */
  lemma StepPreservesValid(r: Room, me: PlayerId, a: Action)
    requires Valid(r) && Offered(r, me, a)
    ensures Apply(r, me, a).Success? ==> Valid(Apply(r, me, a).value)
    ensures Apply(r, me, a).Success? ==> Stage(Apply(r, me, a).value) >= Stage(r)
    ensures r.finalRound && Apply(r, me, a).Success? ==> Apply(r, me, a).value.cambioCallerIndex == r.cambioCallerIndex
  {
    match a
    case Start => StartValid(r, me);
    case ViewInitial => ViewInitialValid(r, me);
    case Draw => DrawValid(r, me);
    case Swap(k) => SwapValid(r, me, k);
    case Discard => DiscardValid(r, me);
    case Cambio => CambioValid(r, me);
  }

  /** Turn ownership: drawing, discarding and calling Cambio are refused to everyone but the current player. */
  lemma OnlyCurrentPlayerActs(r: Room, me: PlayerId, a: Action)
    requires Valid(r) && Offered(r, me, a)
    requires a == Draw || a == Discard || a == Cambio
    requires me != r.playerOrder[r.currentPlayerIndex]
    ensures Apply(r, me, a).Failure?
  {
  }

  /** A single outstanding draw: while a card is drawn, every draw is refused. */
  lemma NoSecondDraw(r: Room, me: PlayerId)
    requires Valid(r) && Offered(r, me, Draw) && r.drawnCard.Some?
    ensures DrawCard(r, me).Failure?
  {
  }

  /** The final scores are the scores of the revealed hands, one entry for each player. */
  lemma FinalScoresOfRevealedHands(r: Room)
    requires Seated(r)
    ensures var r' := EndGame(r);
      forall e :: e in r'.finalScores.value ==>
        e.playerId in r.playerOrder && e.score == Score(r'.players[e.playerId].cards)
  {
    var r' := EndGame(r);
    var table := ScoreTable(r.playerOrder, r.players);
    EndGameRanking(r);
    forall e | e in r'.finalScores.value
      ensures e.playerId in r.playerOrder && e.score == Score(r'.players[e.playerId].cards)
    {
      assert e in multiset(r'.finalScores.value);
      assert e in multiset(table);
      var i :| 0 <= i < |table| && table[i] == e;
      var p := r.playerOrder[i];
      assert e.playerId == p && e.score == Score(r.players[p].cards);
      ScoreIgnoresVisibility(r'.players[p].cards, r.players[p].cards);
    }
  }
}

=== FILE: ranking.dfy ===
/**
 * The final ranking: one entry per player, ordered by ascending score with a stable sort, so that
 * players with equal scores keep their join order.
 */
module Ranking {

  datatype ScoreEntry = ScoreEntry(playerId: string, name: string, score: int)

  ghost predicate SortedByScore(s: seq<ScoreEntry>) {
    forall i, j :: 0 <= i < j < |s| ==> s[i].score <= s[j].score
  }

  /** The entries with score `v`, in the order they appear. */
  function WithScore(s: seq<ScoreEntry>, v: int): seq<ScoreEntry> {
    if |s| == 0 then []
    else (if s[0].score == v then [s[0]] else []) + WithScore(s[1..], v)
  }

  /** Puts `e` in front of the first entry whose score is not below its own. */
  function Insert(e: ScoreEntry, s: seq<ScoreEntry>): (r: seq<ScoreEntry>)
    ensures multiset(r) == multiset(s) + multiset{e}
  {
    if |s| == 0 || e.score <= s[0].score then [e] + s
    else
      assert s == [s[0]] + s[1..];
      [s[0]] + Insert(e, s[1..])
  }

  lemma {:induction false} InsertSorted(e: ScoreEntry, s: seq<ScoreEntry>)
    requires SortedByScore(s)
    ensures SortedByScore(Insert(e, s))
    decreases |s|
  {
    if |s| > 0 && e.score > s[0].score {
      var rest := Insert(e, s[1..]);
      InsertSorted(e, s[1..]);
      var r := [s[0]] + rest;
      forall j | 0 <= j < |rest| ensures s[0].score <= rest[j].score {
        assert rest[j] in multiset(rest);
        if rest[j] != e {
          assert rest[j] in multiset(s[1..]);
          var m :| 0 <= m < |s[1..]| && s[1..][m] == rest[j];
          assert s[m + 1] == rest[j];
        }
      }
      forall i, j | 0 <= i < j < |r| ensures r[i].score <= r[j].score {
        if i == 0 {
          assert r[j] == rest[j - 1];
        } else {
          assert r[i] == rest[i - 1] && r[j] == rest[j - 1];
        }
      }
    }
  }

  /** The entries ordered by ascending score; among equal scores the earlier entry stays first. */
  function SortByScore(s: seq<ScoreEntry>): (r: seq<ScoreEntry>)
    ensures multiset(r) == multiset(s)
    ensures |r| == |s|
    ensures SortedByScore(r)
  {
    if |s| == 0 then []
    else
      assert s == [s[0]] + s[1..];
      var t := SortByScore(s[1..]);
      InsertSorted(s[0], t);
      Insert(s[0], t)
  }

  /** Inserting `e` puts it in front of every entry with the same score. */
  lemma {:induction false} InsertWithScore(e: ScoreEntry, s: seq<ScoreEntry>, v: int)
    ensures WithScore(Insert(e, s), v) == (if e.score == v then [e] else []) + WithScore(s, v)
    decreases |s|
  {
    if |s| == 0 || e.score <= s[0].score {
      assert ([e] + s)[1..] == s;
    } else {
      var rest := Insert(e, s[1..]);
      assert ([s[0]] + rest)[1..] == rest;
      InsertWithScore(e, s[1..], v);
    }
  }

  /** Stability: for every score, the entries with that score keep their relative order. */
  lemma {:induction false} SortKeepsTies(s: seq<ScoreEntry>, v: int)
    ensures WithScore(SortByScore(s), v) == WithScore(s, v)
    decreases |s|
  {
    if |s| > 0 {
      InsertWithScore(s[0], SortByScore(s[1..]), v);
      SortKeepsTies(s[1..], v);
    }
  }

  /** `k` is the earliest position holding the lowest score. */
  ghost predicate IsFirstLowest(s: seq<ScoreEntry>, k: int) {
    && 0 <= k < |s|
    && (forall j :: 0 <= j < |s| ==> s[k].score <= s[j].score)
    && (forall j :: 0 <= j < k ==> s[k].score < s[j].score)
  }

  function FirstLowest(s: seq<ScoreEntry>): (k: int)
    requires |s| > 0
    ensures IsFirstLowest(s, k)
  {
    if |s| == 1 then 0
    else
      var k := FirstLowest(s[1..]);
      if s[0].score <= s[1 + k].score then 0 else 1 + k
  }

  /** The first entry of the ranking is the earliest entry with the lowest score. */
  lemma {:induction false} SortHeadIsFirstLowest(s: seq<ScoreEntry>, k: int)
    requires IsFirstLowest(s, k)
    ensures SortByScore(s)[0] == s[k]
    decreases |s|
  {
    var t := SortByScore(s[1..]);
    if |s| > 1 {
      assert t[0] in multiset(t);
      assert t[0] in s[1..];
      if k == 0 {
        assert s[0].score <= t[0].score;
      } else {
        assert IsFirstLowest(s[1..], k - 1);
        SortHeadIsFirstLowest(s[1..], k - 1);
      }
    }
  }
}

=== FILE: rooms.dfy ===
/**
 * The shared room record of one Cambio match, the queries the handlers make of it, and the
 * invariant every reachable record keeps, card conservation among them.
 */
module Rooms {
  import opened Wrappers
  import opened Cards
  import opened Ranking

  /** The opaque per-session token a client generates for itself. */
  type PlayerId = string

  /** The stages the record's `phase` field takes; the final round and the end are separate flags. */
  datatype Phase = Lobby | InitialView | Playing

  datatype Player = Player(name: string, cards: seq<Slot>, hasViewedInitial: bool, connected: bool)

  datatype Room = Room(
    host: PlayerId,
    deck: seq<Card>,              // the top of the deck is the last element
    discardPile: seq<Card>,       // the top of the pile is the last element
    currentPlayerIndex: int,
    playerOrder: seq<PlayerId>,   // join order
    players: map<PlayerId, Player>,
    started: bool,
    phase: Phase,
    gameOver: bool,
    drawnCard: Option<Card>,
    drawnBy: Option<PlayerId>,
    finalRound: bool,
    cambioCaller: Option<PlayerId>,
    cambioCallerIndex: Option<int>,
    winner: Option<PlayerId>,
    finalScores: Option<seq<ScoreEntry>>)

  predicate Distinct(s: seq<PlayerId>) {
    forall i, j :: 0 <= i < j < |s| ==> s[i] != s[j]
  }

  /** Every id in the join order has a player entry, and there is at least one. */
  predicate Seated(r: Room) {
    && |r.playerOrder| > 0
    && forall p :: p in r.playerOrder ==> p in r.players
  }

  /** The position of the first occurrence of `x`, or -1, as `Array.prototype.indexOf` answers. */
  function IndexOf(s: seq<PlayerId>, x: PlayerId): (i: int)
    ensures -1 <= i < |s|
    ensures i == -1 <==> x !in s
    ensures 0 <= i ==> s[i] == x && x !in s[..i]
  {
    if |s| == 0 then -1
    else if s[0] == x then 0
    else
      var j := IndexOf(s[1..], x);
      assert j >= 0 ==> s[..j + 1] == [s[0]] + s[1..][..j];
      if j == -1 then -1 else j + 1
  }

  lemma DistinctIndexOf(s: seq<PlayerId>, i: int)
    requires Distinct(s) && 0 <= i < |s|
    ensures IndexOf(s, s[i]) == i
  {
  }

  /** Whether it is `me`'s turn: the entry of the join order at the turn index is `me`. */
  function IsMyTurn(r: Room, me: PlayerId): (mine: bool)
    ensures mine ==> me in r.playerOrder
    ensures Distinct(r.playerOrder) && 0 <= r.currentPlayerIndex ==> (mine <==> IndexOf(r.playerOrder, me) == r.currentPlayerIndex)
  {
    if 0 <= r.currentPlayerIndex < |r.playerOrder| && r.playerOrder[r.currentPlayerIndex] == me then
      if Distinct(r.playerOrder) then DistinctIndexOf(r.playerOrder, r.currentPlayerIndex); true else true
    else false
  }

  /** The drawn card as `me`'s client sees it: only the player who drew it holds it. */
  function HeldCard(r: Room, me: PlayerId): (c: Option<Card>)
    ensures c.Some? <==> r.drawnCard.Some? && r.drawnBy == Some(me)
    ensures c.Some? ==> c == r.drawnCard
  {
    if r.drawnCard.Some? && r.drawnBy == Some(me) then r.drawnCard else None
  }

  // ---------------------------------------------------------------------------
  // Where the cards are.
  // ---------------------------------------------------------------------------

  function CardsOf(slots: seq<Slot>): (cs: seq<Card>)
    ensures |cs| == |slots|
    ensures forall i :: 0 <= i < |slots| ==> cs[i] == slots[i].card
  {
    seq(|slots|, i requires 0 <= i < |slots| => slots[i].card)
  }

  /** The cards held by the players listed in `order`. */
  function Hands(order: seq<PlayerId>, players: map<PlayerId, Player>): multiset<Card> {
    if |order| == 0 then multiset{}
    else
      (if order[0] in players then multiset(CardsOf(players[order[0]].cards)) else multiset{})
      + Hands(order[1..], players)
  }

  /** The number of hand slots of the players listed in `order`. */
  function SlotCount(order: seq<PlayerId>, players: map<PlayerId, Player>): nat {
    if |order| == 0 then 0
    else (if order[0] in players then |players[order[0]].cards| else 0) + SlotCount(order[1..], players)
  }

  function Pending(drawn: Option<Card>): multiset<Card> {
    match drawn
    case None => multiset{}
    case Some(c) => multiset{c}
  }

  /** Every card of the room: deck, hands, discard pile and the drawn card. */
  function CardsInPlay(r: Room): multiset<Card> {
    multiset(r.deck) + Hands(r.playerOrder, r.players) + multiset(r.discardPile) + Pending(r.drawnCard)
  }

  /** The room holds every card of the game exactly as often as the game is played with it. */
  ghost predicate Conserved(r: Room) {
    forall c :: CardsInPlay(r)[c] == Copies(c)
  }

  /** Conservation says the room's cards are, as a multiset, the cards of a fresh deck. */
  lemma ConservedIsFreshDeck(r: Room)
    ensures Conserved(r) <==> CardsInPlay(r) == multiset(FreshDeck())
  {
    if Conserved(r) {
      forall c ensures CardsInPlay(r)[c] == multiset(FreshDeck())[c] {
        FreshDeckComposition(c);
      }
    }
    if CardsInPlay(r) == multiset(FreshDeck()) {
      forall c ensures CardsInPlay(r)[c] == Copies(c) {
        FreshDeckComposition(c);
      }
    }
  }

  lemma {:induction false} HandsSize(order: seq<PlayerId>, players: map<PlayerId, Player>)
    ensures |Hands(order, players)| == SlotCount(order, players)
    decreases |order|
  {
    if |order| > 0 {
      HandsSize(order[1..], players);
    }
  }

  /** In a conserved room the deck, the hands, the discard pile and the drawn card number 54. */
  lemma ConservedCount(r: Room)
    requires Conserved(r)
    ensures |r.deck| + SlotCount(r.playerOrder, r.players) + |r.discardPile| + (if r.drawnCard.Some? then 1 else 0) == 54
  {
    HandsSize(r.playerOrder, r.players);
    ConservedIsFreshDeck(r);
    FreshDeckComposition(Joker);
  }

  lemma DistinctTail(s: seq<PlayerId>)
    requires Distinct(s) && |s| > 0
    ensures Distinct(s[1..]) && s[0] !in s[1..]
  {
  }

  /** Replacing one listed player's entry swaps that player's cards in the hands and nothing else. */
  lemma {:induction false} HandsUpdate(order: seq<PlayerId>, players: map<PlayerId, Player>, me: PlayerId, p: Player)
    requires Distinct(order) && me in order && me in players
    ensures Hands(order, players[me := p]) + multiset(CardsOf(players[me].cards))
         == Hands(order, players) + multiset(CardsOf(p.cards))
    decreases |order|
  {
    DistinctTail(order);
    if order[0] == me {
      HandsAgree(order[1..], players[me := p], players);
    } else {
      assert order == [order[0]] + order[1..];
      assert me in order[1..];
      HandsUpdate(order[1..], players, me, p);
      var q := players[me := p];
      var head := if order[0] in players then multiset(CardsOf(players[order[0]].cards)) else multiset{};
      assert Hands(order, q) == head + Hands(order[1..], q);
      assert Hands(order, players) == head + Hands(order[1..], players);
      var m, m' := multiset(CardsOf(players[me].cards)), multiset(CardsOf(p.cards));
      assert Hands(order[1..], q) + m == Hands(order[1..], players) + m';
      calc {
        Hands(order, q) + m;
        head + (Hands(order[1..], q) + m);
        head + (Hands(order[1..], players) + m');
        Hands(order, players) + m';
      }
    }
  }

  /** Hands only depend on the listed players' cards. */
  lemma {:induction false} HandsAgree(order: seq<PlayerId>, a: map<PlayerId, Player>, b: map<PlayerId, Player>)
    requires forall p :: p in order ==> (p in a <==> p in b)
    requires forall p :: p in order && p in a ==> CardsOf(a[p].cards) == CardsOf(b[p].cards)
    ensures Hands(order, a) == Hands(order, b)
    decreases |order|
  {
    if |order| > 0 {
      HandsAgree(order[1..], a, b);
    }
  }

  /** Appending a player to the order adds that player's cards to the hands. */
  lemma {:induction false} HandsSnoc(order: seq<PlayerId>, players: map<PlayerId, Player>, me: PlayerId)
    requires me in players
    ensures Hands(order + [me], players) == Hands(order, players) + multiset(CardsOf(players[me].cards))
    decreases |order|
  {
    if |order| == 0 {
      assert [me][1..] == [];
    } else {
      assert (order + [me])[1..] == order[1..] + [me];
      HandsSnoc(order[1..], players, me);
    }
  }

  /** Players without cards hold nothing. */
  lemma {:induction false} HandsEmpty(order: seq<PlayerId>, players: map<PlayerId, Player>)
    requires forall p :: p in order && p in players ==> players[p].cards == []
    ensures Hands(order, players) == multiset{}
    decreases |order|
  {
    if |order| > 0 {
      HandsEmpty(order[1..], players);
    }
  }

  /** Replacing the card of one slot exchanges one card for another. */
  lemma SlotReplace(slots: seq<Slot>, k: int, s: Slot)
    requires 0 <= k < |slots|
    ensures multiset(CardsOf(slots[k := s])) + multiset{slots[k].card} == multiset(CardsOf(slots)) + multiset{s.card}
  {
    assert CardsOf(slots[k := s]) == CardsOf(slots)[k := s.card];
  }

  // ---------------------------------------------------------------------------
  // The invariant of reachable rooms.
  // ---------------------------------------------------------------------------

  /** How far the match has got: lobby, initial view, playing, final round, over. */
  function Stage(r: Room): nat {
    if r.gameOver then 4
    else if r.finalRound then 3
    else match r.phase
      case Lobby => 0
      case InitialView => 1
      case Playing => 2
  }

  /** Who is seated and what they hold: the join order, the player map and the size of every hand. */
  ghost predicate Seating(r: Room) {
    && Seated(r)
    && Distinct(r.playerOrder)
    && (forall p :: p in r.players ==> p in r.playerOrder)
    && r.playerOrder[0] == r.host
    && (r.started <==> r.phase != Lobby)
    && (r.started ==> |r.playerOrder| >= 2)
    // hands are empty in the lobby and hold four slots from the deal on
    && (forall p :: p in r.players ==> |r.players[p].cards| == if r.started then 4 else 0)
  }

  /** Whose turn it is, who holds the drawn card, and how far the final round has got. */
  ghost predicate TurnState(r: Room) {
    && 0 <= r.currentPlayerIndex < |r.playerOrder|
    // only one drawn card exists, and it is held by the player whose turn it is
    && (r.drawnCard.Some? <==> r.drawnBy.Some?)
    && (r.drawnBy.Some? ==> r.phase == Playing && !r.gameOver && r.drawnBy == Some(r.playerOrder[r.currentPlayerIndex]))
    && (r.phase != Playing ==> !r.finalRound)
    && (r.gameOver ==> r.finalRound && r.winner.Some? && r.finalScores.Some?)
    // the caller's position is fixed, and while the match runs the turn never returns to it
    && (r.finalRound ==> r.cambioCallerIndex.Some? && 0 <= r.cambioCallerIndex.value < |r.playerOrder|)
    && (r.finalRound && !r.gameOver ==> r.cambioCallerIndex.value != r.currentPlayerIndex)
  }

  /** The invariant of every room the actions can reach. */
  ghost predicate Valid(r: Room) {
    Seating(r) && TurnState(r) && Conserved(r)
  }
}

=== FILE: scoring.dfy ===
/** The score of a hand: the sum of its cards' points, added left to right. */
module Scoring {
  import opened Cards

  /** The points of a hand, accumulated from the first slot to the last. */
  function Score(hand: seq<Slot>): (total: int)
    ensures -|hand| <= total <= 10 * |hand|
  {
    if |hand| == 0 then 0
    else Score(hand[..|hand| - 1]) + Value(hand[|hand| - 1].card)
  }

  /** The same hand with every slot turned face up. */
  function Reveal(hand: seq<Slot>): (shown: seq<Slot>)
    ensures |shown| == |hand|
    ensures forall i :: 0 <= i < |hand| ==> shown[i].card == hand[i].card && shown[i].visible
  {
    seq(|hand|, i requires 0 <= i < |hand| => hand[i].(visible := true))
  }

  /** Scoring a hand split in two gives the sum of the two parts' scores. */
  lemma {:induction false} ScoreAppend(a: seq<Slot>, b: seq<Slot>)
    ensures Score(a + b) == Score(a) + Score(b)
    decreases |b|
  {
    if |b| > 0 {
      var ab := a + b;
      assert ab[..|ab| - 1] == a + b[..|b| - 1];
      assert ab[|ab| - 1] == b[|b| - 1];
      ScoreAppend(a, b[..|b| - 1]);
    } else {
      assert a + b == a;
    }
  }

  /** A score depends only on the cards, not on which of them are face up. */
  lemma {:induction false} ScoreIgnoresVisibility(a: seq<Slot>, b: seq<Slot>)
    requires |a| == |b|
    requires forall i :: 0 <= i < |a| ==> a[i].card == b[i].card
    ensures Score(a) == Score(b)
    decreases |a|
  {
    if |a| > 0 {
      ScoreIgnoresVisibility(a[..|a| - 1], b[..|b| - 1]);
    }
  }

  /** Replacing the card in one slot changes the score by the difference of the two cards' points. */
  lemma ScoreAfterReplace(hand: seq<Slot>, k: int, slot: Slot)
    requires 0 <= k < |hand|
    ensures Score(hand[k := slot]) == Score(hand) - Value(hand[k].card) + Value(slot.card)
  {
    assert hand == hand[..k] + [hand[k]] + hand[k + 1..];
    assert hand[k := slot] == hand[..k] + [slot] + hand[k + 1..];
    ScoreAppend(hand[..k] + [hand[k]], hand[k + 1..]);
    ScoreAppend(hand[..k], [hand[k]]);
    ScoreAppend(hand[..k] + [slot], hand[k + 1..]);
    ScoreAppend(hand[..k], [slot]);
    assert [hand[k]][..0] == [];
    assert [slot][..0] == [];
  }

  /** The worked examples: A♠ scores 1, K♥ scores -1, K♠ scores 10, a Joker 0, and 10♣ with Q♦ 20. */
  lemma ScoreExamples()
    ensures Score([Slot(Ranked(Ace, Spades), false)]) == 1
    ensures Score([Slot(King(Hearts), false)]) == -1
    ensures Score([Slot(King(Spades), false)]) == 10
    ensures Score([Slot(Joker, false)]) == 0
    ensures Score([Slot(Ranked(Ten, Clubs), false), Slot(Ranked(Queen, Diamonds), true)]) == 20
  {
    var pair := [Slot(Ranked(Ten, Clubs), false), Slot(Ranked(Queen, Diamonds), true)];
    assert pair[..1] == [Slot(Ranked(Ten, Clubs), false)];
    assert pair[..1][..0] == [];
    assert [Slot(Ranked(Ace, Spades), false)][..0] == [];
    assert [Slot(King(Hearts), false)][..0] == [];
    assert [Slot(King(Spades), false)][..0] == [];
    assert [Slot(Joker, false)][..0] == [];
  }
}

=== FILE: wrappers.dfy ===
/** The Option and Result types shared by the Cambio model. */
module Wrappers {

  /** A value that may be absent, the model of a JavaScript field that is unset or `null`. */
  datatype Option<+T> = None | Some(value: T)

  /** The outcome of a game action: the proposed room record, or why the action was refused. */
  datatype Result<+R, +E> = Success(value: R) | Failure(error: E)
}
